=== FILE: README.md ===
# Text-to-speech pipeline: a Dafny model

This project models the non-UI core of the `TTSProTool` component in
`Java.script.h`. That core is the pipeline that turns a text box into one WAV
file, in five stages:

- **Splitting and packing** (`chunkText`). The text is cut into sentences by
  the regular expression `/[^.!?]+[.!?]+|[^.!?]+$/g`, with `[str]` as the
  fallback. The sentences are then packed greedily into chunks under the strict
  budget test `current.length + s.length < CHUNK_SIZE`, where `CHUNK_SIZE` is
  4000 UTF-16 code units.
- **Header writing** (`createWavHeader`, `writeString`). This writes the
  44-byte RIFF/WAVE PCM header: mono, 24000 Hz, 16 bits. The DataView setters
  wrap values modulo 2^32 and 2^16.
- **Detection and stripping** (`isWav`, `findDataOffset`). `isWav` compares
  the first four bytes against the `RIFF` magic. `findDataOffset` scans for the
  `data` tag and falls back to 44.
- **Reassembly** (`mergeBuffers`, `createWavFromBuffer`). The sample data of
  the fragments goes, in order, behind a fresh header sized for the total.
- **Credential rotation and the run** (`fetchWithRotation`, `generateAudio`).
  - Each chunk is requested in turn.
  - The shared key cursor moves round-robin on status 429 or 403, and on any
    caught error whose message mentions `Quota`.
  - A call makes at most one pass over the key pool.
  - The first error aborts the run.

Modules, one file each:

| file | module | models |
|---|---|---|
| `wrappers.dfy` | `Wrappers` | `Option` and `Result` |
| `seqs.dfy` | `Seqs` | concatenation of a sequence of sequences (a Blob built from parts) |
| `arith.dfy` | `Arith` | lemmas about `%`, `/` and `*` used by the cursor arithmetic and the progress value |
| `chunker.dfy` | `Chunker` | `chunkText` |
| `wav.dfy` | `Wav` | `createWavHeader`, `writeString`, `isWav`, `findDataOffset` |
| `merge.dfy` | `Merge` | `mergeBuffers`, `createWavFromBuffer` |
| `rotation.dfy` | `Rotation` | `fetchWithRotation` |
| `generation.dfy` | `Generation` | `generateAudio` |
| `keys.dfy` | `Keys` | how `handleSaveKey`, `handleClearKeys` and the runs move the key cursor |

Modelling choices:

- **Text.** Text is a sequence of UTF-16 code units (`Chunker.CodeUnit`,
  0..0xFFFF), because JavaScript's `length` counts code units.
- **Bytes.** Buffers and Blobs are sequences of bytes (`Wav.uint8`).
- **The network.** The network is an oracle `net: nat -> Reply`, where
  `net(k)` is the reply to the `k`-th request of a run. A reply is one of:
  - audio bytes, already base64-decoded;
  - "ok but no audio";
  - a failing status with its body text;
  - a thrown error message.

  The key a request carries does not influence the reply in the model.
- **React state.** The component's state is a `View` value passed in and handed
  back. The shared `currentKeyIndex` ref is passed in as `cursor` and returned
  as `cursor'`.
- **Loop-free descriptions.**
  - `Rotation.RotationSpec` describes one call of `fetchWithRotation` without
    its loop.
  - `Generation.Generated` describes a whole run.
  - Each is paired with a lemma showing it determines the outcome, and the
    methods are proved to satisfy them.

Edge cases of the code that the model keeps:

- `chunkText("")` returns no chunks. The regular expression finds no match in
  `""`, so the fallback is `[""]`, and the packer never pushes an empty buffer.
- `chunkText` drops leading `.`, `!` and `?`: no match can start on them, and
  the global scan steps over them. The chunks concatenate back to the text
  exactly when the text does not start with a terminator, or consists of
  terminators only (`Chunker.ChunksJoin`, `Chunker.AllTerminators`).
- `mergeBuffers([])` is an empty Blob with no header at all.

## Model

| member | source | states |
|---|---|---|
| Chunker.Run | Java.script.h:256 | the greedy `[^.!?]+` / `[.!?]+` run is a prefix of the text's own class and stops at the first code unit of the other class |
| Chunker.MatchAt | Java.script.h:256 | a match starts exactly at a non-terminator; it is a non-empty word run followed by nothing but terminators; and when it stops early, it stops after a terminator and before a non-terminator |
| Chunker.MatchAllCovers | Java.script.h:256 | the global matches, concatenated, are the text minus its leading terminators, so no code unit after the first match is lost or repeated |
| Chunker.MatchAllNone | Java.script.h:256 | the global match is empty exactly when the text consists of terminators only, the case where the `\|\| [str]` fallback applies |
| Chunker.MatchAll | Java.script.h:256 | every match the global scan returns is a sentence: a non-empty run of non-terminators followed by a run of terminators or by the end of the text |
| Chunker.Sentences | Java.script.h:256 | the sentence list is never empty: it is the fallback `[str]` or a list of sentences of the regular expression |
| Chunker.Flush | Java.script.h:259-261 | `if(current) chunks.push(current)` pushes at most one chunk, the buffer itself, and pushes it exactly when the buffer is non-empty |
| Chunker.Pack | Java.script.h:257-261 | the packer never emits an empty chunk |
| Chunker.ChunkText | Java.script.h:253-263 | `chunkText` never returns an empty chunk |
| Chunker.PackFirst | Java.script.h:257-261 | a non-empty buffer is never lost: the first chunk emitted starts with it |
| Chunker.PackGreedy | Java.script.h:257-261 | chunks are flushed only when full: for two neighbouring chunks, some remaining sentence that begins the second did not fit behind the first under the 4000 budget |
| Chunker.ChunksGreedy | Java.script.h:253-263 | for neighbouring chunks of `chunkText`, a sentence of the text that begins the next chunk did not fit behind the previous one, so any two neighbouring chunks together hold at least 4000 code units |
| Chunker.AllTerminators | Java.script.h:256-261 | a non-empty text made of terminators only matches nothing, falls back to `[str]`, and comes back as the single chunk equal to the text |
| Chunker.PackJoins | Java.script.h:257-261 | the greedy packer loses and duplicates nothing: its chunks concatenate to the buffer followed by all remaining sentences |
| Chunker.PackFits | Java.script.h:257-261 | when the buffer and all remaining sentences total less than the 4000 budget, the packer emits one chunk holding all of them, or none if that is empty |
| Chunker.ChunksJoin | Java.script.h:253-263 | the chunks concatenate to the text with its leading terminators dropped; an all-terminator text comes back whole; a text that does not start with a terminator is reproduced exactly |
| Chunker.ChunksEmpty | Java.script.h:256-262 | the empty text yields zero chunks, and every other text at least one |
| Chunker.ChunkShape | Java.script.h:256-262 | every chunk is non-empty, and a chunk of 4000 or more code units is exactly one sentence of the splitter |
| Chunker.ChunksAtSentenceBoundaries | Java.script.h:256-262 | every offset where one chunk ends and the next begins is also a sentence boundary, so no sentence is ever cut |
| Chunker.ShortText | Java.script.h:253-263 | a non-empty text under 4000 code units that does not start with a terminator is sent as one chunk equal to the text |
| Wav.Write | Java.script.h:336-337 | a run of `setUint8` overwrites exactly the target bytes and leaves the length and every other byte unchanged |
| Wav.Codes | Java.script.h:336-337 | for the ASCII tags `writeString` is called with, `string.charCodeAt(i)` stored by `setUint8` gives one byte per character, the code modulo 256 |
| Wav.WriteString | Java.script.h:336-337 | `writeString` keeps the buffer length, puts character `i` (modulo 256) at `offset + i`, and leaves every other byte unchanged |
| Wav.LE32 | Java.script.h:321-332 | a `setUint32` field is four bytes; its value is read back by `Wav.LE32RoundTrip` |
| Wav.LE16 | Java.script.h:321-332 | a `setUint16` field is two bytes; its value is read back by `Wav.LE16RoundTrip` |
| Wav.CreateWavHeader | Java.script.h:317-334 | the header buffer is 44 bytes; its contents are stated by `Wav.HeaderIsLayout` and `Wav.HeaderRoundTrip` |
| Wav.IsWav | Java.script.h:268-272 | a buffer shorter than four bytes is never WAV; `Wav.IsWavIff` states the full test |
| Wav.LE32RoundTrip | Java.script.h:321 | reading back a little-endian `setUint32` yields the value modulo 2^32 |
| Wav.LE16RoundTrip | Java.script.h:325 | reading back a little-endian `setUint16` yields the value modulo 2^16 |
| Wav.HeaderIsLayout | Java.script.h:317-338 | the write sequence of `createWavHeader` on a zeroed 44-byte buffer equals the canonical field layout: RIFF, size, WAVE, fmt, the PCM block, data, size |
| Wav.HeaderRoundTrip | Java.script.h:317-334 | the header is 44 bytes, its four tags sit at 0, 8, 12 and 36, and decoding it (followed by anything) yields RIFF size `36 + len`, fmt size 16, format 1, one channel, 24000 Hz, 48000 bytes/s, block align 2, 16 bits and data size `len`, both sizes modulo 2^32 |
| Wav.IsWavIff | Java.script.h:268-272 | the big-endian magic comparison holds exactly when there are at least four bytes and they are `R`, `I`, `F`, `F` |
| Wav.FirstDataTag | Java.script.h:277-282 | the scan's hit is a `data` tag at an index `j` with `j + 4 < length`, and no such tag occurs earlier in the scanned range |
| Wav.FindDataOffset | Java.script.h:275-284 | the result is 8 past the least `data` tag at an index `i` with `i + 4 < length`, or 44 when the scanned range holds none |
| Wav.OwnHeaderDataOffset | Java.script.h:268-334 | our own header is recognised as WAV, and its data offset is 44, or 12 when `36 + len` modulo 2^32 spells `data` |
| Merge.Slice | Java.script.h:298 | `slice(offset)` keeps the bytes from the offset on, and is empty once the offset reaches the end |
| Merge.SampleData | Java.script.h:294-298 | the part taken from a fragment is the whole fragment when it is not WAV, and otherwise its suffix from `findDataOffset`, empty when that offset reaches the end |
| Merge.WrapFacts | Java.script.h:313-314 | wrapping raw data gives a WAV file 44 bytes longer, whose bytes after the header are the data and whose header decodes to sizes `36 + len` and `len` modulo 2^32 |
| Merge.Parts | Java.script.h:293-301 | one part per fragment, in input order: the fragment from its data offset if it is WAV, the whole fragment otherwise |
| Merge.MergeBuffers | Java.script.h:286-306 | no fragments give an empty blob; otherwise the blob is 44 plus the parts' total length, its bytes after the header are the parts in order, and its header decodes with data size = total and RIFF size = length − 8, both modulo 2^32 |
| Merge.MergedSizes | Java.script.h:289-304 | the merged header's data size is the summed length of the parts modulo 2^32, and the file is 44 bytes longer than the concatenated parts |
| Merge.MergeBare | Java.script.h:293-305 | when no fragment is WAV, the fragments are kept whole: the bytes after the header are the fragments in order, and the length is 44 plus their summed lengths |
| Merge.CreateWavFromBuffer | Java.script.h:308-315 | the result is always WAV; WAV input is returned unchanged; anything else is placed behind a header whose sizes decode to its length and 36 more, modulo 2^32 |
| Merge.StripWrapped | Java.script.h:293-314 | stripping undoes wrapping: the sample data of header(`\|d\|`) followed by `d` is `d`, outside the size collision |
| Merge.WrapThenMerge | Java.script.h:286-315 | merging a single wrapped fragment gives back the wrapped fragment, outside the size collision |
| Merge.MergeIdempotent | Java.script.h:286-306 | merging a merged file again on its own leaves it unchanged, outside the size collision |
| Rotation.Contains | Java.script.h:241 | `includes` holds when the needle occurs at some offset of the message |
| Rotation.Caught | Java.script.h:240-246 | a caught error either rotates or is rethrown with its own message, and it rotates exactly when the message contains `Quota` |
| Rotation.Classify | Java.script.h:223-246 | only audio is delivered, with its bytes; status 429 or 403 rotates; a failing status that does not rotate fails with the response body, a thrown error that does not rotate with its own message, and a success without audio with "No audio" |
| Rotation.RotationRule | Java.script.h:223-246 | a reply rotates exactly when it is status 429 or 403, a failing status whose body contains `Quota`, or a thrown error whose message contains `Quota`; audio and a success without audio never rotate |
| Rotation.Advance | Java.script.h:225 | the rotated cursor stays below the pool size; from a cursor on a key it moves to the next key, and from the last key back to 0 |
| Rotation.FetchWithRotation | Java.script.h:200-251 | the `k`-th request uses key `(cursor + k) % n`, at most `n` requests; all but the last rotated; a last reply that does not rotate is returned or thrown with the cursor left on its key, and if all `n` rotated the call throws "All API Keys exhausted." with the cursor back at its start (details below) |
| Rotation.RequestBounds | Java.script.h:200-202 | an empty pool sends no request and throws "All API Keys exhausted."; a non-empty pool sends between 1 and `n` requests; a success leaves the cursor on the key that answered |
| Rotation.RotationSpecUnique | Java.script.h:200-251 | the loop-free description of a call admits exactly one result, one final cursor and one list of keys |
| Rotation.NoAudioNeverRotates | Java.script.h:234-247 | "No audio" does not contain `Quota`, so a success without audio is rethrown at once instead of rotating |
| Generation.Trim | Java.script.h:142 | `trim()` shortens the text and leaves no white space at either end of a non-empty result |
| Generation.TrimSlice | Java.script.h:142 | the trimmed text is a contiguous slice of the text, with only white space before and after it |
| Generation.Percent | Java.script.h:162 | the progress value `Math.round((i + 1) / chunks.length * 100)`, rounded half up over the exact quotient |
| Generation.PercentNearest | Java.script.h:162 | the progress value is the integer nearest to `100 * done / total`, a half rounding up |
| Generation.TrimEmpty | Java.script.h:142 | `!text.trim()` holds exactly when every code unit is JavaScript white space |
| Generation.PercentComplete | Java.script.h:162 | the progress update after the last chunk is 100 |
| Generation.FetchChunks | Java.script.h:155-163 | one `fetchWithRotation` per chunk, in chunk order; each call starts with the cursor and request count the previous one left; every call but the last succeeded; the buffers are the successful calls' audio in order; one progress update per buffer |
| Generation.GenerateAudio | Java.script.h:141-174 | a blank text or an empty pool makes no call (the latter opens the settings with "Please add an API Key first!"); otherwise the chunks are fetched in order up to the first failure, ending with the merged file at progress 100 or with no file and the failing call's message verbatim (details below) |
| Generation.ChainedAgree | Java.script.h:158-160 | two chains of calls made with the same pool, cursor and replies agree call by call |
| Generation.FetchedUnique | Java.script.h:154-163 | the description of the chunk loop determines its calls, buffers and final cursor |
| Generation.GeneratedUnique | Java.script.h:141-174 | the description of a run determines its final view, cursor, calls, buffers and progress updates |
| Keys.SaveKey | Java.script.h:124-133 | a non-empty key is appended to the pool, an empty one changes nothing, and the cursor is untouched |
| Keys.ClearKeysAsWritten | Java.script.h:135-138 | clearing empties the pool and leaves the cursor where it was |
| Keys.RunEnds | Java.script.h:200-247 | a run leaves the pool alone; from a cursor on a key, or when its first reply rotates, it ends on a key; from a cursor past the end with a first reply that does not rotate, the reply is rethrown and the cursor stays where it was |
| Keys.StaleCursorPersists | Java.script.h:135-247 | as written, once the cursor is past the end of a non-empty pool, any number of runs whose first reply does not rotate leave the pool and the cursor unchanged |
| Keys.ClearKeepsStaleCursor | Java.script.h:124-138 | as written, the history save a, b, c; a run ending on key 2; clear; save k leaves the cursor at 2 over a pool of one key |
| Keys.ReplayUsable | Java.script.h:124-138 | with the cursor reset on clear, every history from mount leaves the cursor on a key of the pool or at 0 |
| Keys.Fetch | Java.script.h:200-251 | one `fetchWithRotation` call keeps the pool and leaves the cursor usable |

`Rotation.FetchWithRotation` states the following:

1. It makes at most one request per pool position, with the `k`-th request using key
   `(cursor + k) % n`.
2. Every reply but the last one rotated, where rotating means status 429 or
   403, or a caught message containing `Quota`.
3. If the last reply did not rotate, its audio is returned or its message is
   thrown, and the cursor is left on the key that answered:
   `(cursor + attempts) % n`.
4. If every reply rotated, exactly `n` requests were made, the call throws
   "All API Keys exhausted.", and the cursor is back at its start.
5. With `n = 0`, it makes no request and throws that message.

`Generation.GenerateAudio` states the following:

1. For a blank text it changes nothing and makes no call.
2. With an empty pool it makes no call, opens the settings and shows "Please
   add an API Key first!".
3. Otherwise it fetches the chunks one at a time, in order, and stops at the
   first failing call. Then one of two things happens:
   - If every chunk succeeded, the view holds `mergeBuffers` of the buffers in
     chunk order, with progress 100 and no error.
   - If a call failed, the view holds no file and that call's message,
     verbatim, and progress stays at the last update.

   Either way, generating is off at the end.

## Left out

- The UI, for these reasons:
  - The React components, JSX, view switching and the `VOICES` table are UI
    and static data.
  - `previewVoice`, `Audio` playback, `playbackRate`/`speed` and
    `URL.createObjectURL` are browser media and floating point.
  - The model has no preview path, so `createWavFromBuffer` is modelled on its
    own.
- I/O, for these reasons:
  - `localStorage` reads and writes in the mount effect, `handleSaveKey` and
    `handleClearKeys` are browser storage. `Keys` models only their effect on
    the pool and the cursor. The `alert` and the clearing of the input field
    are not modelled.
  - `fetch`, the JSON request body, `response.json()`, the optional-chaining
    path to the inline data and `atob` are network and browser built-ins. A
    reply arrives already classified, with decoded bytes.
- Rotation.FetchWithRotation: requires `cursor < |pool|` for a non-empty pool.
  An out-of-range cursor makes `apiKeys[currentKeyIndex.current]` `undefined`,
  which the model does not represent as a key. `Keys.ClearKeepsStaleCursor`
  shows that the code as written reaches such a cursor.
- Rotation.FetchWithRotation: a `Status` reply is taken to be a non-OK
  response. The key a request carries does not influence the reply in the
  model.
- Generation.FetchChunks: requires `cursor < |pool|`, which excludes the stale
  cursor that `Keys.ClearKeepsStaleCursor` shows the code reaching; the
  corrected `Keys.Replay` never produces it (`Keys.ReplayUsable`).
- Generation.GenerateAudio: the requirement `cursor < |pool|` is the same one
  as for `fetchWithRotation`. The run is sequential and awaits each call, so
  the race between a preview and a run sharing `currentKeyIndex` is not
  modelled: that is concurrency.
- Generation.Percent: `Math.round((i + 1) / chunks.length * 100)` is
  computed in floating point. The model rounds the exact quotient half up. The
  two may differ where the float quotient lands just below a half, so only the
  number of updates and the final 100 are claimed as the source's behaviour.
- Generation.PercentNearest: states the rounding of the exact quotient, for the
  reason given for `Generation.Percent`.
- Generation.GenerateAudio: React batches its state setters. The model
  records only the state after the run and the list of progress values, not
  the intermediate renders.
- Merge.StripWrapped, Merge.WrapThenMerge, Merge.MergeIdempotent: these
  exclude lengths where `36 + len` modulo 2^32 equals 0x61746164. At those
  lengths the RIFF size field itself reads `data`, and `findDataOffset` stops
  at offset 4, returning 12 instead of 44. That takes a data length of about
  1.6 GB. `Wav.OwnHeaderDataOffset` states both cases.
- Wav.Codes: takes a string of Unicode characters, where `charCodeAt` reads
  UTF-16 code units, so a character above 0xFFFF would give one byte instead of
  two. Only the ASCII tags `RIFF`, `WAVE`, `fmt ` and `data` are ever written,
  and for them the two agree.
- Wav.FindDataOffset: a `data` tag in the last four bytes is not found,
  exactly as in the loop bound `i < bytes.length - 4`. This is stated, not
  corrected.

## Findings

| source | as written | input that shows it | evidently intended | confidence | as-written member | corrected member |
|---|---|---|---|---|---|---|
| Java.script.h:135-138 | `handleClearKeys` empties `apiKeys` but leaves `currentKeyIndex.current` where it was | save three keys; a run leaves the cursor on the third (index 2); clear; save one key. The cursor is then 2 over a pool of one, so the next request sends `key=undefined`, and every run whose first reply does not rotate sends it again | clearing the pool also puts the cursor back to 0, as on mount | medium, not executed | Keys.ClearKeepsStaleCursor | Keys.ReplayUsable |

=== FILE: arith.dfy ===
/** Facts about Euclidean division used for the key cursor and the progress
    percentage. */
module Arith {

  /** Sum and remainder: one step of the cursor is one more in the sum. */
  lemma ModStep(x: nat, n: nat)
    requires n > 0
    ensures (x % n + 1) % n == (x + 1) % n
  {
    var q, r := x / n, x % n;
    if r + 1 < n {
      DivModUnique(r + 1, n, 0, r + 1);
      DivModUnique(x + 1, n, q, r + 1);
    } else {
      DivModUnique(r + 1, n, 1, 0);
      MulSucc(q, n);
      DivModUnique(x + 1, n, q + 1, 0);
    }
  }

  /** One more multiple of `n`. */
  lemma MulSucc(q: int, n: int)
    ensures (q + 1) * n == q * n + n
  {
  }

  /** Euclidean division has one quotient and one remainder. */
  lemma DivModUnique(x: nat, n: nat, q: int, r: int)
    requires n > 0 && 0 <= r < n && x == q * n + r
    ensures x / n == q && x % n == r
  {
    var q' := x / n;
    var r' := x % n;
    assert x == q' * n + r';
    if q > q' {
      MulAtLeast(q - q', n);
    } else if q < q' {
      MulAtLeast(q' - q, n);
    }
  }

  /** A positive multiple of `n` is at least `n`. */
  lemma {:induction false} MulAtLeast(d: int, n: int)
    requires d >= 1 && n > 0
    ensures d * n >= n
    decreases d
  {
    if d > 1 {
      MulAtLeast(d - 1, n);
      assert d * n == (d - 1) * n + n;
    }
  }
}

=== FILE: chunker.dfy ===
/** The text chunker of the speech tool (`chunkText`): a global regular-expression
    match that cuts the text into sentences, followed by a greedy packer that joins
    consecutive sentences into request-sized chunks. */
module Chunker {
  import opened Wrappers
  import opened Seqs

  /** One UTF-16 code unit. JavaScript strings, and their `length`, count these. */
  type CodeUnit = u: int | 0 <= u < 0x1_0000

  type Text = seq<CodeUnit>

  /** The packing budget `CHUNK_SIZE`, in code units. */
  const ChunkSize: nat := 4000

  /** The sentence terminators of the class `[.!?]`: full stop, exclamation mark, question mark. */
  predicate IsTerminator(u: CodeUnit)
  {
    u == 0x2E || u == 0x21 || u == 0x3F
  }

  /** Length of the longest prefix of `s` whose code units are all terminators
      (`terminators`) or all non-terminators (`!terminators`): a greedy `[.!?]+`
      or `[^.!?]+`. */
  function Run(s: Text, terminators: bool): (n: nat)
    ensures n <= |s|
    ensures forall i :: 0 <= i < n ==> IsTerminator(s[i]) == terminators
    ensures n < |s| ==> IsTerminator(s[n]) != terminators
  {
    if s == [] || IsTerminator(s[0]) != terminators then 0
    else 1 + Run(s[1..], terminators)
  }

  /** The shape of one match of `/[^.!?]+[.!?]+|[^.!?]+$/`: a non-empty run of
      non-terminators followed by nothing but terminators (none at all for the
      second alternative). */
  predicate IsSentence(x: Text)
  {
    var words := Run(x, false);
    0 < words && forall i :: words <= i < |x| ==> IsTerminator(x[i])
  }

  /** The match attempted at the start of `s`: its length, or None when no match
      can start there (the first code unit is a terminator, or `s` is empty). */
  function MatchAt(s: Text): (m: Option<nat>)
    ensures m.Some? <==> s != [] && !IsTerminator(s[0])
    ensures m.Some? ==> 0 < m.value <= |s| && IsSentence(s[..m.value])
    ensures m.Some? && m.value < |s| ==> IsTerminator(s[m.value - 1]) && !IsTerminator(s[m.value])
  {
    if s == [] || IsTerminator(s[0]) then None
    else
      var words := Run(s, false);
      var stops := Run(s[words..], true);
      assert forall i :: words <= i < words + stops ==> s[i] == s[words..][i - words];
      Some(words + stops)
  }

  /** `str.match(re)` with the global flag: every match, scanning left to right; a
      position where no match starts is stepped over one code unit at a time. */
  function MatchAll(s: Text): (ms: seq<Text>)
    decreases |s|
    ensures forall i :: 0 <= i < |ms| ==> IsSentence(ms[i])
  {
    if s == [] then []
    else match MatchAt(s)
      case None => MatchAll(s[1..])
      case Some(m) => [s[..m]] + MatchAll(s[m..])
  }

  /** The sentence list of `chunkText`: the matches, or `[str]` when there are none. */
  function Sentences(s: Text): (r: seq<Text>)
    ensures r != []
    ensures r == [s] || forall i :: 0 <= i < |r| ==> IsSentence(r[i])
  {
    var ms := MatchAll(s);
    if ms == [] then [s] else ms
  }

  /** `if(current) chunks.push(current)`: the empty buffer is never pushed. */
  function Flush(current: Text): (r: seq<Text>)
    ensures |r| <= 1 && (r == [] <==> current == [])
    ensures forall i :: 0 <= i < |r| ==> r[i] == current
  {
    if current == [] then [] else [current]
  }

  /** The greedy packing loop from buffer `current` over the sentences still to come. */
  function Pack(current: Text, rest: seq<Text>): (chunks: seq<Text>)
    ensures forall i :: 0 <= i < |chunks| ==> chunks[i] != []
    decreases |rest|
  {
    if rest == [] then Flush(current)
    else if |current| + |rest[0]| < ChunkSize then Pack(current + rest[0], rest[1..])
    else Flush(current) + Pack(rest[0], rest[1..])
  }

  /** `chunkText(str)`. */
  function ChunkText(s: Text): (chunks: seq<Text>)
    ensures forall i :: 0 <= i < |chunks| ==> chunks[i] != []
  {
    Pack([], Sentences(s))
  }

  /** Number of leading terminators, which no match can start on. */
  function Leading(s: Text): nat
  {
    Run(s, true)
  }

  /** `p` is an offset, into the joined text, at which some element of `xs` starts
      or at which the last one ends. */
  predicate IsBoundary(xs: seq<Text>, p: nat)
    decreases |xs|
  {
    p == 0 || (xs != [] && p >= |xs[0]| && IsBoundary(xs[1..], p - |xs[0]|))
  }

  // ---------------------------------------------------------------------------
  // The splitter

  /** The matches cover the text exactly, apart from its leading terminators: the
      step-over branch of the scan is taken only before the first match. */
  lemma {:induction false} MatchAllCovers(s: Text)
    ensures Flatten(MatchAll(s)) == s[Leading(s)..]
    decreases |s|
  {
    if s == [] {
    } else {
      match MatchAt(s)
      case None =>
        MatchAllCovers(s[1..]);
        SkipTerminator(s);
      case Some(m) =>
        MatchAllCovers(s[m..]);
        MatchAllStep(s, m);
        NoLeadingAfterMatch(s, m);
        SplitAt(s, m);
    }
  }

  /** A position where no match starts is a leading terminator. */
  lemma SkipTerminator(s: Text)
    requires s != [] && MatchAt(s).None?
    ensures MatchAll(s) == MatchAll(s[1..])
    ensures s[1..][Leading(s[1..])..] == s[Leading(s)..]
  {
    assert Leading(s) == 1 + Leading(s[1..]);
  }

  /** Cutting the text at `m` and joining the halves gives the text back. */
  lemma SplitAt(s: Text, m: nat)
    requires m <= |s|
    ensures s[..m] + s[m..][0..] == s[0..]
  {
    assert s[m..][0..] == s[m..] && s[0..] == s;
    assert s[..m] + s[m..] == s;
  }

  /** The scan emits the match at the start and carries on after it. */
  lemma MatchAllStep(s: Text, m: nat)
    requires s != [] && MatchAt(s) == Some(m)
    ensures Flatten(MatchAll(s)) == s[..m] + Flatten(MatchAll(s[m..]))
  {
    var rest := MatchAll(s[m..]);
    assert MatchAll(s) == [s[..m]] + rest;
    assert ([s[..m]] + rest)[1..] == rest;
  }

  /** Neither the text nor what follows a match starts with a terminator. */
  lemma NoLeadingAfterMatch(s: Text, m: nat)
    requires s != [] && MatchAt(s) == Some(m)
    ensures Leading(s) == 0 && Leading(s[m..]) == 0
  {
    if m < |s| {
      assert s[m..][0] == s[m];
    }
  }

  /** The global match finds nothing exactly when the text is all terminators
      (which includes the empty text): the case the `|| [str]` fallback covers. */
  lemma MatchAllNone(s: Text)
    ensures MatchAll(s) == [] <==> Leading(s) == |s|
  {
    MatchAllCovers(s);
    FlattenEmpty(MatchAll(s));
  }

  // ---------------------------------------------------------------------------
  // The packer

  /** Packing loses and duplicates nothing: the chunks join to the buffer followed by
      the remaining sentences. */
  lemma {:induction false} PackJoins(current: Text, rest: seq<Text>)
    ensures Flatten(Pack(current, rest)) == current + Flatten(rest)
    decreases |rest|
  {
    if rest == [] {
      assert current + [] == current;
    } else if |current| + |rest[0]| < ChunkSize {
      PackJoins(current + rest[0], rest[1..]);
      assert current + rest[0] + Flatten(rest[1..]) == current + Flatten(rest);
    } else {
      PackJoins(rest[0], rest[1..]);
      FlattenAppend(Flush(current), Pack(rest[0], rest[1..]));
      if current != [] {
        FlattenSingle(current);
      }
    }
  }

  /** Every chunk boundary is the buffer's end or a sentence boundary: no sentence
      is ever cut between two chunks. */
  lemma {:induction false} PackCutsAtSentences(current: Text, rest: seq<Text>, p: nat)
    requires IsBoundary(Pack(current, rest), p)
    ensures p == 0 || (p >= |current| && IsBoundary(rest, p - |current|))
    decreases |rest|
  {
    if rest == [] {
      if current != [] && p != 0 {
        assert [current][1..] == [];
        assert p - |current| == 0;
      }
    } else if |current| + |rest[0]| < ChunkSize {
      PackCutsAtSentences(current + rest[0], rest[1..], p);
    } else {
      var tail := Pack(rest[0], rest[1..]);
      if current == [] {
        assert Pack(current, rest) == tail;
        PackCutsAtSentences(rest[0], rest[1..], p);
      } else if p != 0 {
        assert Pack(current, rest) == [current] + tail;
        assert ([current] + tail)[1..] == tail;
        var q := p - |current|;
        assert IsBoundary(tail, q);
        PackCutsAtSentences(rest[0], rest[1..], q);
      }
    }
  }

  /** A chunk at or over the budget is a single sentence taken whole: every chunk is
      under the budget, or is the starting buffer, or is one of the sentences. */
  lemma {:induction false} PackOversized(current: Text, rest: seq<Text>)
    ensures forall c :: c in Pack(current, rest) ==> |c| < ChunkSize || c == current || c in rest
    decreases |rest|
  {
    if rest == [] {
    } else if |current| + |rest[0]| < ChunkSize {
      PackOversized(current + rest[0], rest[1..]);
    } else {
      PackOversized(rest[0], rest[1..]);
    }
  }

  /** When everything left fits under the budget, packing yields one chunk holding it
      all (or none, if that is empty). */
  lemma {:induction false} PackFits(current: Text, rest: seq<Text>)
    requires |current| + |Flatten(rest)| < ChunkSize
    ensures Pack(current, rest) == Flush(current + Flatten(rest))
    decreases |rest|
  {
    if rest == [] {
      assert current + [] == current;
    } else {
      assert |Flatten(rest)| == |rest[0]| + |Flatten(rest[1..])|;
      PackFits(current + rest[0], rest[1..]);
      assert current + rest[0] + Flatten(rest[1..]) == current + Flatten(rest);
    }
  }

  // ---------------------------------------------------------------------------
  // chunkText

  /** Chunks joined in order give back the text with its leading terminators
      dropped; a text made only of terminators comes back whole. So a text that does
      not start with `.`, `!` or `?` is reproduced exactly. */
  lemma ChunksJoin(s: Text)
    ensures Flatten(ChunkText(s)) == if Leading(s) == |s| then s else s[Leading(s)..]
    ensures s != [] && !IsTerminator(s[0]) ==> Flatten(ChunkText(s)) == s
  {
    PackJoins([], Sentences(s));
    MatchAllNone(s);
    MatchAllCovers(s);
    FlattenSingle(s);
  }

  /** The empty text yields no chunk at all, and every other text at least one. */
  lemma ChunksEmpty(s: Text)
    ensures ChunkText(s) == [] <==> s == []
  {
    ChunksJoin(s);
    if s == [] {
      assert Sentences(s) == [[]];
      assert Pack([], [[]]) == Pack([], []);
    }
  }

  /** No sentence is cut: every chunk boundary is a sentence boundary, so each chunk
      is a run of consecutive sentences. */
  lemma ChunksAtSentenceBoundaries(s: Text, p: nat)
    requires IsBoundary(ChunkText(s), p)
    ensures IsBoundary(Sentences(s), p)
  {
    PackCutsAtSentences([], Sentences(s), p);
  }

  /** Every chunk is non-empty, and one of `ChunkSize` code units or more is exactly
      one sentence of the splitter. */
  lemma ChunkShape(s: Text)
    ensures forall c :: c in ChunkText(s) ==> c != [] && (|c| >= ChunkSize ==> c in Sentences(s))
  {
    PackOversized([], Sentences(s));
  }

  /** A non-empty text shorter than the budget that does not start with a terminator
      is sent as a single chunk equal to the text. */
  lemma ShortText(s: Text)
    requires 0 < |s| < ChunkSize && !IsTerminator(s[0])
    ensures ChunkText(s) == [s]
  {
    MatchAllNone(s);
    MatchAllCovers(s);
    assert Leading(s) == 0 && s[0..] == s;
    PackFits([], Sentences(s));
    assert [] + s == s;
  }

  /** A text made of terminators only falls back to `[str]` and comes back as one
      chunk equal to the text. */
  lemma AllTerminators(s: Text)
    requires s != [] && Leading(s) == |s|
    ensures ChunkText(s) == [s]
  {
    MatchAllNone(s);
    assert Sentences(s) == [s] && [s][1..] == [];
    if |s| < ChunkSize {
      assert Pack([], [s]) == Pack([] + s, []) && [] + s == s;
    } else {
      assert Pack([], [s]) == Flush([]) + Pack(s, []);
    }
  }

  /** A packing that starts from a non-empty buffer emits a first chunk that begins
      with that buffer. */
  lemma {:induction false} PackFirst(current: Text, rest: seq<Text>)
    requires current != []
    ensures Pack(current, rest) != [] && current <= Pack(current, rest)[0]
    decreases |rest|
  {
    if rest == [] {
    } else if |current| + |rest[0]| < ChunkSize {
      PackFirst(current + rest[0], rest[1..]);
    } else {
      assert Pack(current, rest) == [current] + Pack(rest[0], rest[1..]);
    }
  }

  /** `next` begins with one of the sentences `rest`, one that `prev` had no room
      for: the two together reach the budget. */
  predicate NoRoomFor(rest: seq<Text>, prev: Text, next: Text)
  {
    exists k :: 0 <= k < |rest| && rest[k] <= next && |prev| + |rest[k]| >= ChunkSize
  }

  /** A sentence that did not fit is still one of the sentences once an earlier one
      is put back in front. */
  lemma NoRoomForCons(rest: seq<Text>, prev: Text, next: Text)
    requires rest != [] && NoRoomFor(rest[1..], prev, next)
    ensures NoRoomFor(rest, prev, next)
  {
    var k :| 0 <= k < |rest[1..]| && rest[1..][k] <= next && |prev| + |rest[1..][k]| >= ChunkSize;
    assert rest[k + 1] == rest[1..][k];
  }

  /** The packer flushes only when it must: every chunk after the first begins with
      a sentence that did not fit into the chunk before it. */
  lemma {:induction false} PackGreedy(current: Text, rest: seq<Text>)
    ensures forall i :: 0 < i < |Pack(current, rest)| ==>
              NoRoomFor(rest, Pack(current, rest)[i - 1], Pack(current, rest)[i])
    decreases |rest|
  {
    var chunks := Pack(current, rest);
    if rest == [] {
    } else if |current| + |rest[0]| < ChunkSize {
      PackGreedy(current + rest[0], rest[1..]);
      assert chunks == Pack(current + rest[0], rest[1..]);
      forall i | 0 < i < |chunks|
        ensures NoRoomFor(rest, chunks[i - 1], chunks[i])
      {
        NoRoomForCons(rest, chunks[i - 1], chunks[i]);
      }
    } else {
      var tail := Pack(rest[0], rest[1..]);
      PackGreedy(rest[0], rest[1..]);
      var d := |Flush(current)|;
      assert chunks == Flush(current) + tail;
      forall i | 0 < i < |chunks|
        ensures NoRoomFor(rest, chunks[i - 1], chunks[i])
      {
        if i == d {
          assert chunks[i - 1] == current && chunks[i] == tail[0];
          if rest[0] != [] {
            PackFirst(rest[0], rest[1..]);
          }
          assert rest[0] <= chunks[i] && |chunks[i - 1]| + |rest[0]| >= ChunkSize;
        } else {
          assert 0 < i - d < |tail|;
          assert chunks[i] == tail[i - d] && chunks[i - 1] == tail[i - d - 1];
          NoRoomForCons(rest, chunks[i - 1], chunks[i]);
        }
      }
    }
  }

  /** Neighbouring chunks would not fit together: each chunk after the first starts
      with a sentence of the splitter that the chunk before it had no room for, and
      so any two neighbouring chunks together reach the budget. */
  lemma ChunksGreedy(s: Text)
    ensures forall i :: 0 < i < |ChunkText(s)| ==>
              NoRoomFor(Sentences(s), ChunkText(s)[i - 1], ChunkText(s)[i])
    ensures forall i :: 0 <= i < |ChunkText(s)| - 1 ==> |ChunkText(s)[i]| + |ChunkText(s)[i + 1]| >= ChunkSize
  {
    var chunks := ChunkText(s);
    PackGreedy([], Sentences(s));
    forall i | 0 <= i < |chunks| - 1
      ensures |chunks[i]| + |chunks[i + 1]| >= ChunkSize
    {
      assert NoRoomFor(Sentences(s), chunks[i], chunks[i + 1]);
    }
  }
}

=== FILE: generation.dfy ===
/** The generation run of the speech tool (`generateAudio`): guard clauses, then
    one `fetchWithRotation` per chunk, strictly in chunk order and one at a time,
    then `mergeBuffers`; the first error aborts the run. The component's React
    state is a `View` value taken in and handed back. */
module Generation {
  import opened Wrappers
  import opened Arith
  import opened Chunker
  import opened Wav
  import opened Merge
  import opened Rotation

  /** The component state the run reads and writes: the generated file behind
      `audioUrl`, `error`, `progress`, `isGenerating` and `showSettings`. */
  datatype View = View(audio: Option<Bytes>, error: Option<string>, progress: int,
                       generating: bool, settingsOpen: bool)

  /** One `fetchWithRotation` call of a run: the chunk it sent, the cursor it found,
      the run's request number of its first request, its result, the cursor it left
      and the keys its requests used. */
  datatype Call = Call(chunk: Text, cursorIn: nat, start: nat, result: Result<Bytes>,
                       cursorOut: nat, used: seq<Key>)

  const NoKeyMessage: string := "Please add an API Key first!"

  // ---------------------------------------------------------------------------
  // text.trim()

  /** The code units `String.prototype.trim` strips: WhiteSpace (tab, vertical
      tab, form feed, space, no-break space, byte order mark and the other space
      separators) and LineTerminator (line feed, carriage return, line and
      paragraph separators). */
  predicate IsJsSpace(u: CodeUnit)
  {
    u in JsSpaces
  }

  const JsSpaces: set<CodeUnit> :=
    {0x09, 0x0A, 0x0B, 0x0C, 0x0D, 0x20, 0xA0, 0x1680,
     0x2000, 0x2001, 0x2002, 0x2003, 0x2004, 0x2005, 0x2006, 0x2007, 0x2008, 0x2009, 0x200A,
     0x2028, 0x2029, 0x202F, 0x205F, 0x3000, 0xFEFF}

  /** Every code unit of `t` is white space. */
  predicate IsBlank(t: Text)
  {
    forall i :: 0 <= i < |t| ==> IsJsSpace(t[i])
  }

  /** `t` without its leading white space. */
  function TrimStart(t: Text): (r: Text)
    ensures |r| <= |t| && r == t[|t| - |r|..]
    ensures forall i :: 0 <= i < |t| - |r| ==> IsJsSpace(t[i])
    ensures r != [] ==> !IsJsSpace(r[0])
  {
    if t != [] && IsJsSpace(t[0]) then
      var r := TrimStart(t[1..]);
      assert t[1..][|t| - 1 - |r|..] == t[|t| - |r|..];
      assert forall i :: 0 < i < |t| - |r| ==> t[i] == t[1..][i - 1];
      r
    else t
  }

  /** `t` without its trailing white space. */
  function TrimEnd(t: Text): (r: Text)
    ensures |r| <= |t| && r == t[..|r|]
    ensures forall i :: |r| <= i < |t| ==> IsJsSpace(t[i])
    ensures r != [] ==> !IsJsSpace(r[|r| - 1])
  {
    if t != [] && IsJsSpace(t[|t| - 1]) then
      var r := TrimEnd(t[..|t| - 1]);
      assert t[..|t| - 1][..|r|] == t[..|r|];
      assert forall i :: |r| <= i < |t| - 1 ==> t[i] == t[..|t| - 1][i];
      r
    else t
  }

  /** `text.trim()`: neither end of a non-empty result is white space. */
  function Trim(t: Text): (r: Text)
    ensures |r| <= |t|
    ensures r != [] ==> !IsJsSpace(r[0]) && !IsJsSpace(r[|r| - 1])
  {
    var u := TrimStart(t);
    var r := TrimEnd(u);
    assert r != [] ==> r[0] == u[0];
    r
  }

  /** `r` is the slice of `t` from `lo`, with only white space before it and after
      it. */
  predicate TrimmedFrom(t: Text, lo: nat, r: Text)
  {
    && lo + |r| <= |t| && r == t[lo..lo + |r|]
    && (forall i :: 0 <= i < lo ==> IsJsSpace(t[i]))
    && (forall i :: lo + |r| <= i < |t| ==> IsJsSpace(t[i]))
  }

  /** The trimmed text is the slice of `t` between a white-space prefix and a
      white-space suffix. */
  lemma TrimSlice(t: Text)
    ensures TrimmedFrom(t, |t| - |TrimStart(t)|, Trim(t))
  {
    var u := TrimStart(t);
    var r := TrimEnd(u);
    TrimInside(t, u, r);
    assert Trim(t) == r;
  }

  /** Where the trimmed text sits inside the original: a suffix `u` of `t` after
      white space, cut down to a prefix `r` whose dropped tail is white space. */
  lemma TrimInside(t: Text, u: Text, r: Text)
    requires |u| <= |t| && u == t[|t| - |u|..]
    requires forall i :: 0 <= i < |t| - |u| ==> IsJsSpace(t[i])
    requires |r| <= |u| && r == u[..|r|]
    requires forall i :: |r| <= i < |u| ==> IsJsSpace(u[i])
    ensures TrimmedFrom(t, |t| - |u|, r)
  {
    var lo := |t| - |u|;
    assert u[..|r|] == t[lo..lo + |r|];
    forall i | lo + |r| <= i < |t|
      ensures IsJsSpace(t[i])
    {
      assert t[i] == u[i - lo];
    }
  }

  lemma {:induction false} TrimStartBlank(t: Text)
    ensures TrimStart(t) == [] <==> IsBlank(t)
    ensures TrimStart(t) != [] ==> !IsJsSpace(TrimStart(t)[0])
    decreases |t|
  {
    if t != [] && IsJsSpace(t[0]) {
      TrimStartBlank(t[1..]);
      assert IsBlank(t) <==> IsBlank(t[1..]) by {
        if IsBlank(t[1..]) {
          forall i | 0 <= i < |t| ensures IsJsSpace(t[i]) {
            if i > 0 { assert t[i] == t[1..][i - 1]; }
          }
        }
        if IsBlank(t) {
          forall i | 0 <= i < |t| - 1 ensures IsJsSpace(t[1..][i]) {
            assert t[1..][i] == t[i + 1];
          }
        }
      }
    }
  }

  lemma {:induction false} TrimEndNonEmpty(t: Text)
    requires t != [] && !IsJsSpace(t[0])
    ensures TrimEnd(t) != []
    decreases |t|
  {
    if IsJsSpace(t[|t| - 1]) {
      TrimEndNonEmpty(t[..|t| - 1]);
    }
  }

  /** `!text.trim()` holds exactly when the text is all white space (or empty). */
  lemma TrimEmpty(t: Text)
    ensures Trim(t) == [] <==> IsBlank(t)
  {
    TrimStartBlank(t);
    if TrimStart(t) != [] {
      TrimEndNonEmpty(TrimStart(t));
    }
  }

  // ---------------------------------------------------------------------------
  // Progress

  /** `Math.round(done / total * 100)`, computed on exact rationals: the nearest
      integer to `100 * done / total`, halves rounded up. */
  function Percent(done: nat, total: nat): nat
    requires total > 0
  {
    (200 * done + total) / (2 * total)
  }

  /** The progress value is the integer nearest to `100 * done / total`, a half
      rounded up: `p - 1/2 <= 100 * done / total < p + 1/2`. */
  lemma PercentNearest(done: nat, total: nat)
    requires total > 0
    ensures var p := Percent(done, total);
            2 * total * p <= 200 * done + total < 2 * total * p + 2 * total
  {
  }

  /** The last progress update of a complete run is 100. */
  lemma PercentComplete(total: nat)
    requires total > 0
    ensures Percent(total, total) == 100
  {
    DivModUnique(200 * total + total, 2 * total, 100, total);
  }

  // ---------------------------------------------------------------------------
  // generateAudio

  /** The call does what one `fetchWithRotation` does from the cursor and the
      request number it records. */
  ghost predicate Performs(pool: seq<Key>, net: nat -> Reply, c: Call)
  {
    RotationSpec(pool, c.cursorIn, net, c.start, c.result, c.cursorOut, c.used)
  }

  /** The calls are chained from cursor `cursor` and request number `start`: the
      first call starts there, each later one starts where the previous one stopped
      and finds the cursor the previous one left, and each does what one
      `fetchWithRotation` does. */
  ghost predicate Chained(pool: seq<Key>, cursor: nat, start: nat, net: nat -> Reply, calls: seq<Call>)
    decreases |calls|
  {
    calls == [] ||
    (&& calls[0].cursorIn == cursor && calls[0].start == start
     && Performs(pool, net, calls[0])
     && Chained(pool, calls[0].cursorOut, start + |calls[0].used|, net, calls[1..]))
  }

  /** The cursor a chain of calls leaves behind. */
  function EndCursor(cursor: nat, calls: seq<Call>): nat
  {
    if calls == [] then cursor else calls[|calls| - 1].cursorOut
  }

  /** The request number at which the next call of a chain starts. */
  function EndRequest(start: nat, calls: seq<Call>): nat
  {
    if calls == [] then start else calls[|calls| - 1].start + |calls[|calls| - 1].used|
  }

  /** Adding a call that starts where the chain stopped keeps the chain. */
  lemma {:induction false} ChainedExtend(pool: seq<Key>, cursor: nat, start: nat, net: nat -> Reply,
                                         calls: seq<Call>, c: Call)
    requires Chained(pool, cursor, start, net, calls)
    requires c.cursorIn == EndCursor(cursor, calls) && c.start == EndRequest(start, calls)
    requires Performs(pool, net, c)
    ensures Chained(pool, cursor, start, net, calls + [c])
    decreases |calls|
  {
    if calls == [] {
      assert calls + [c] == [c] && [c][1..] == [];
    } else {
      var head := calls[0];
      var tail := calls[1..];
      assert EndCursor(head.cursorOut, tail) == EndCursor(cursor, calls);
      assert EndRequest(start + |head.used|, tail) == EndRequest(start, calls);
      ChainedExtend(pool, head.cursorOut, start + |head.used|, net, tail, c);
      assert (calls + [c])[1..] == tail + [c];
    }
  }

  /** What the chunk loop did: it called `fetchWithRotation` on the chunks in order,
      every call but the last succeeded, and the buffers are the successful calls'
      audio in order; either every chunk succeeded, or the last call failed and the
      loop stopped there. */
  ghost predicate Fetched(chunks: seq<Text>, pool: seq<Key>, cursor: nat, net: nat -> Reply,
                          calls: seq<Call>, buffers: seq<Bytes>, cursor': nat)
  {
    && 0 < |calls| <= |chunks|
    && Chained(pool, cursor, 0, net, calls)
    && (forall j :: 0 <= j < |calls| ==> calls[j].chunk == chunks[j])
    && (forall j :: 0 <= j < |calls| - 1 ==> calls[j].result.Ok?)
    && cursor' == calls[|calls| - 1].cursorOut
    && |buffers| <= |calls|
    && (forall j :: 0 <= j < |buffers| ==> calls[j].result == Ok(buffers[j]))
    && (calls[|calls| - 1].result.Ok? ==> |calls| == |chunks| && |buffers| == |calls|)
    && (calls[|calls| - 1].result.Err? ==> |buffers| == |calls| - 1)
  }

  /** The loop's state after `i` successful calls. */
  ghost predicate Progressed(chunks: seq<Text>, pool: seq<Key>, cursor: nat, net: nat -> Reply,
                             calls: seq<Call>, buffers: seq<Bytes>, i: nat)
  {
    && i <= |chunks| && |calls| == i && |buffers| == i
    && Chained(pool, cursor, 0, net, calls)
    && (forall j :: 0 <= j < i ==> calls[j].chunk == chunks[j] && calls[j].result == Ok(buffers[j]))
  }

  /** A failed call ends the loop in a state `Fetched` describes. */
  lemma FetchedOnError(chunks: seq<Text>, pool: seq<Key>, cursor: nat, net: nat -> Reply,
                       calls: seq<Call>, buffers: seq<Bytes>, c: Call)
    requires Progressed(chunks, pool, cursor, net, calls, buffers, |calls|) && |calls| < |chunks|
    requires c.chunk == chunks[|calls|] && c.result.Err?
    requires Chained(pool, cursor, 0, net, calls + [c])
    ensures Fetched(chunks, pool, cursor, net, calls + [c], buffers, c.cursorOut)
  {
    var cs := calls + [c];
    assert forall j :: 0 <= j < |calls| ==> cs[j] == calls[j];
  }

  /** After every chunk succeeded the loop is in a state `Fetched` describes. */
  lemma FetchedOnSuccess(chunks: seq<Text>, pool: seq<Key>, cursor: nat, net: nat -> Reply,
                         calls: seq<Call>, buffers: seq<Bytes>)
    requires Progressed(chunks, pool, cursor, net, calls, buffers, |chunks|) && chunks != []
    ensures Fetched(chunks, pool, cursor, net, calls, buffers, calls[|calls| - 1].cursorOut)
  {
  }

  /** The `for` loop of `generateAudio`: one `fetchWithRotation` per chunk, in order,
      each awaited before the next, leaving at the first error; `updates` are the
      `setProgress` values, one per chunk fetched. */
  method FetchChunks(chunks: seq<Text>, pool: seq<Key>, cursor: nat, net: nat -> Reply)
    returns (calls: seq<Call>, buffers: seq<Bytes>, updates: seq<int>, cursor': nat)
    requires chunks != [] && cursor < |pool|
    ensures Fetched(chunks, pool, cursor, net, calls, buffers, cursor')
    ensures |updates| == |buffers|
    ensures forall j :: 0 <= j < |updates| ==> updates[j] == Percent(j + 1, |chunks|)
    ensures cursor' < |pool|
  {
    calls, buffers, updates := [], [], [];
    cursor' := cursor;
    var sent := 0;
    var i := 0;
    while i < |chunks|
      invariant Progressed(chunks, pool, cursor, net, calls, buffers, i) && |updates| == i
      invariant cursor' < |pool|
      invariant forall j :: 0 <= j < i ==> updates[j] == Percent(j + 1, |chunks|)
      invariant cursor' == EndCursor(cursor, calls) && sent == EndRequest(0, calls)
    {
      var result, next, used := FetchWithRotation(pool, cursor', net, sent);
      var call := Call(chunks[i], cursor', sent, result, next, used);
      ChainedExtend(pool, cursor, 0, net, calls, call);
      cursor' := next;
      sent := sent + |used|;
      match result {
        case Err(message) =>
          FetchedOnError(chunks, pool, cursor, net, calls, buffers, call);
          calls := calls + [call];
          return;
        case Ok(buffer) =>
          calls := calls + [call];
          buffers := buffers + [buffer];
          updates := updates + [Percent(i + 1, |chunks|)];
      }
      i := i + 1;
    }
    FetchedOnSuccess(chunks, pool, cursor, net, calls, buffers);
  }

  /** What a run that got past the guards did: the chunk loop as `Fetched` states
      it, one progress update per chunk fetched, and then either every chunk
      succeeded, and the view holds the merged file at progress 100 and no error; or
      a call failed, and the view holds no file and that call's error message,
      verbatim. */
  ghost predicate Generated(text: Text, pool: seq<Key>, cursor: nat, net: nat -> Reply, before: View,
                            after: View, cursor': nat, calls: seq<Call>, buffers: seq<Bytes>,
                            updates: seq<int>)
  {
    var chunks := ChunkText(text);
    && Fetched(chunks, pool, cursor, net, calls, buffers, cursor')
    && |updates| == |buffers|
    && (forall j :: 0 <= j < |updates| ==> updates[j] == Percent(j + 1, |chunks|))
    && match calls[|calls| - 1].result
       case Ok(_) =>
         && updates[|updates| - 1] == 100
         && after == View(Some(MergeBuffers(buffers)), None, 100, false, before.settingsOpen)
       case Err(message) =>
         && after == View(None, Some(message), if buffers == [] then 0 else updates[|updates| - 1],
                          false, before.settingsOpen)
  }

  /** `generateAudio()`: the text box `text`, the key pool, the shared key cursor,
      the network replies `net(k)` to the run's `k`-th request, and the view before
      the click. */
  method GenerateAudio(text: Text, pool: seq<Key>, cursor: nat, net: nat -> Reply, before: View)
    returns (after: View, cursor': nat, calls: seq<Call>, buffers: seq<Bytes>, updates: seq<int>)
    requires |pool| == 0 || cursor < |pool|
    ensures IsBlank(text) ==> after == before && cursor' == cursor && calls == [] && updates == []
    ensures !IsBlank(text) && |pool| == 0 ==>
              && after == before.(settingsOpen := true, error := Some(NoKeyMessage))
              && cursor' == cursor && calls == [] && updates == []
    ensures !IsBlank(text) && |pool| > 0 ==>
              Generated(text, pool, cursor, net, before, after, cursor', calls, buffers, updates)
  {
    TrimEmpty(text);
    if Trim(text) == [] {
      return before, cursor, [], [], [];
    }
    if |pool| == 0 {
      after := before.(settingsOpen := true, error := Some(NoKeyMessage));
      return after, cursor, [], [], [];
    }
    // `isGenerating` goes up, `progress` to 0, `error` and `audioUrl` are cleared;
    // the view handed back is the one the run leaves behind.
    var chunks := ChunkText(text);
    ChunksEmpty(text);
    calls, buffers, updates, cursor' := FetchChunks(chunks, pool, cursor, net);
    var progress := if updates == [] then 0 else updates[|updates| - 1];
    match calls[|calls| - 1].result {
      case Err(message) =>
        after := View(None, Some(message), progress, false, before.settingsOpen);
      case Ok(_) =>
        PercentComplete(|chunks|);
        after := View(Some(MergeBuffers(buffers)), None, progress, false, before.settingsOpen);
    }
  }

  /** Two chains from the same cursor and request number, over the same pool and
      replies and sending the same chunks, agree call by call as far as both reach. */
  lemma {:induction false} ChainedAgree(pool: seq<Key>, cursor: nat, start: nat, net: nat -> Reply,
                                        c1: seq<Call>, c2: seq<Call>, k: nat)
    requires Chained(pool, cursor, start, net, c1) && Chained(pool, cursor, start, net, c2)
    requires k <= |c1| && k <= |c2|
    requires forall j :: 0 <= j < k ==> c1[j].chunk == c2[j].chunk
    ensures forall j :: 0 <= j < k ==> c1[j] == c2[j]
    decreases k
  {
    if k > 0 {
      var a, b := c1[0], c2[0];
      RotationSpecUnique(pool, cursor, net, start, a.result, a.cursorOut, a.used,
                         b.result, b.cursorOut, b.used);
      assert a == b;
      assert forall j :: 0 <= j < k - 1 ==> c1[1..][j].chunk == c1[j + 1].chunk == c2[1..][j].chunk;
      ChainedAgree(pool, a.cursorOut, start + |a.used|, net, c1[1..], c2[1..], k - 1);
      forall j | 0 < j < k
        ensures c1[j] == c2[j]
      {
        assert c1[j] == c1[1..][j - 1] && c2[j] == c2[1..][j - 1];
      }
    }
  }

  /** The loop's description pins it down: one sequence of calls, one of buffers
      and one final cursor satisfy it. */
  lemma FetchedUnique(chunks: seq<Text>, pool: seq<Key>, cursor: nat, net: nat -> Reply,
                      calls1: seq<Call>, b1: seq<Bytes>, k1: nat,
                      calls2: seq<Call>, b2: seq<Bytes>, k2: nat)
    requires Fetched(chunks, pool, cursor, net, calls1, b1, k1)
    requires Fetched(chunks, pool, cursor, net, calls2, b2, k2)
    ensures calls1 == calls2 && b1 == b2 && k1 == k2
  {
    var m := if |calls1| <= |calls2| then |calls1| else |calls2|;
    ChainedAgree(pool, cursor, 0, net, calls1, calls2, m);
    assert calls1[m - 1] == calls2[m - 1];
    assert |calls1| == |calls2|;
    assert calls1 == calls2;
    forall j | 0 <= j < |b1| ensures b1[j] == b2[j] {
      assert calls1[j].result == Ok(b1[j]);
    }
  }

  /** The description of a run pins it down: for one text, pool, cursor, set of
      replies and starting view, one final view, one final cursor and one sequence
      of calls, buffers and progress updates satisfy it. */
  lemma GeneratedUnique(text: Text, pool: seq<Key>, cursor: nat, net: nat -> Reply, before: View,
                        a1: View, k1: nat, calls1: seq<Call>, b1: seq<Bytes>, u1: seq<int>,
                        a2: View, k2: nat, calls2: seq<Call>, b2: seq<Bytes>, u2: seq<int>)
    requires Generated(text, pool, cursor, net, before, a1, k1, calls1, b1, u1)
    requires Generated(text, pool, cursor, net, before, a2, k2, calls2, b2, u2)
    ensures a1 == a2 && k1 == k2 && calls1 == calls2 && b1 == b2 && u1 == u2
  {
    FetchedUnique(ChunkText(text), pool, cursor, net, calls1, b1, k1, calls2, b2, k2);
    assert u1 == u2;
  }
}

=== FILE: keys.dfy ===
/** The key pool and the shared key cursor (`apiKeys`, `currentKeyIndex`) as the
    settings panel and the generation runs change them: adding a key
    (`handleSaveKey`), clearing the pool (`handleClearKeys`) and a run moving the
    cursor. Storage in `localStorage` is left out; only the effect on the pool and
    the cursor is modelled. */
module Keys {
  import opened Rotation

  /** The pool of keys and the cursor `currentKeyIndex.current`. */
  datatype Pool = Pool(keys: seq<Key>, cursor: nat)

  /** What can happen to the pool between two runs: a key is saved (the trimmed
      input), the pool is cleared, or a run ends. Which index a run leaves the
      cursor on depends on the replies, so `Ran` carries it, as `at` reduced modulo
      the pool size, together with whether the run's first reply rotated. From a
      cursor on a key, `FetchWithRotation` leaves the cursor on a key. From a cursor
      past the end, the first request carries `apiKeys[cursor]`, which is
      `undefined`: if that reply rotates, the cursor moves onto the pool and the
      run goes on from a key; if not, the reply is rethrown, the run stops at its
      first error, and the cursor stays where it was. */
  datatype Action = Save(key: Key) | Clear | Ran(at: nat, rotated: bool)

  /** The state on mount: no keys, cursor 0. */
  const Initial: Pool := Pool([], 0)

  /** The cursor can be handed to `fetchWithRotation`: it names a key, or the pool is
      empty (and the guard of `generateAudio` stops before any request). */
  predicate Usable(p: Pool)
  {
    |p.keys| == 0 || p.cursor < |p.keys|
  }

  /** `handleSaveKey`, given the trimmed input: a non-empty key is appended, the
      cursor is left alone. */
  function SaveKey(p: Pool, key: Key): (q: Pool)
    ensures key == [] ==> q == p
    ensures key != [] ==> q.keys == p.keys + [key]
    ensures q.cursor == p.cursor
  {
    if key == [] then p else p.(keys := p.keys + [key])
  }

  /** `handleClearKeys` as written: the pool is emptied and the cursor is left where
      it was. */
  function ClearKeysAsWritten(p: Pool): (q: Pool)
    ensures q.keys == [] && q.cursor == p.cursor
  {
    p.(keys := [])
  }

  /** `handleClearKeys` with the cursor put back to 0, as on mount. */
  function ClearKeys(p: Pool): (q: Pool)
    ensures q == Initial
  {
    Pool([], 0)
  }

  /** How a run leaves the cursor: over an empty pool no run starts; a run that
      starts on a key, or whose first reply rotates, ends on a key; a run from a
      cursor past the end whose first reply does not rotate leaves it there. */
  function RunEnds(p: Pool, at: nat, rotated: bool): (q: Pool)
    ensures q.keys == p.keys
    ensures |p.keys| == 0 ==> q == p
    ensures |p.keys| > 0 && (p.cursor < |p.keys| || rotated) ==> q.cursor < |p.keys|
    ensures |p.keys| > 0 && p.cursor >= |p.keys| && !rotated ==> q == p
  {
    if |p.keys| == 0 then p
    else if p.cursor < |p.keys| || rotated then p.(cursor := at % |p.keys|)
    else p
  }

  /** One action, with `handleClearKeys` as written. */
  function StepAsWritten(p: Pool, a: Action): Pool
  {
    match a
    case Save(key) => SaveKey(p, key)
    case Clear => ClearKeysAsWritten(p)
    case Ran(at, rotated) => RunEnds(p, at, rotated)
  }

  /** One action, with the cursor reset on clear. */
  function Step(p: Pool, a: Action): Pool
  {
    match a
    case Save(key) => SaveKey(p, key)
    case Clear => ClearKeys(p)
    case Ran(at, rotated) => RunEnds(p, at, rotated)
  }

  /** The state after a history of actions from mount, as written. */
  function ReplayAsWritten(history: seq<Action>): Pool
  {
    if history == [] then Initial
    else StepAsWritten(ReplayAsWritten(history[..|history| - 1]), history[|history| - 1])
  }

  /** The state after a history of actions from mount, with the reset. */
  function Replay(history: seq<Action>): Pool
  {
    if history == [] then Initial
    else Step(Replay(history[..|history| - 1]), history[|history| - 1])
  }

  /** As written, three keys, a run that stops on the third, a clear and one new key
      leave the cursor at 2 over a pool of one key: the next request reads
      `apiKeys[2]`, which is `undefined`, and sends that as its key. */
  lemma ClearKeepsStaleCursor()
    ensures var p := ReplayAsWritten([Save("a"), Save("b"), Save("c"), Ran(2, false), Clear, Save("k")]);
            p == Pool(["k"], 2) && !Usable(p)
  {
    var h := [Save("a"), Save("b"), Save("c"), Ran(2, false), Clear, Save("k")];
    assert ReplayAsWritten(h[..1]) == Pool(["a"], 0) by { assert h[..1][..0] == []; }
    assert ReplayAsWritten(h[..2]) == Pool(["a", "b"], 0) by { assert h[..2][..1] == h[..1]; }
    assert ReplayAsWritten(h[..3]) == Pool(["a", "b", "c"], 0) by { assert h[..3][..2] == h[..2]; }
    assert ReplayAsWritten(h[..4]) == Pool(["a", "b", "c"], 2) by { assert h[..4][..3] == h[..3]; }
    assert ReplayAsWritten(h[..5]) == Pool([], 2) by { assert h[..5][..4] == h[..4]; }
    assert h[..5] == h[..|h| - 1];
  }

  /** As written, a stale cursor survives every run whose first reply does not
      rotate: each such run sends `apiKeys[cursor]`, `undefined`, again. */
  lemma {:induction false} StaleCursorPersists(h: seq<Action>, runs: seq<Action>)
    requires |ReplayAsWritten(h).keys| > 0 && !Usable(ReplayAsWritten(h))
    requires forall i :: 0 <= i < |runs| ==> runs[i].Ran? && !runs[i].rotated
    ensures ReplayAsWritten(h + runs) == ReplayAsWritten(h)
    decreases |runs|
  {
    if runs == [] {
      assert h + runs == h;
    } else {
      var init := runs[..|runs| - 1];
      assert (h + runs)[..|h + runs| - 1] == h + init;
      assert (h + runs)[|h + runs| - 1] == runs[|runs| - 1];
      StaleCursorPersists(h, init);
    }
  }

  /** With the reset, every history from mount leaves the cursor usable: on a key of
      the pool, or at 0. */
  lemma {:induction false} ReplayUsable(history: seq<Action>)
    ensures Usable(Replay(history))
    ensures Replay(history).cursor == 0 || Replay(history).cursor < |Replay(history).keys|
  {
    if history != [] {
      ReplayUsable(history[..|history| - 1]);
    }
  }

  /** One `fetchWithRotation` call over the pool, the cursor moved to where the
      call left it, which keeps the pool usable. */
  method Fetch(p: Pool, net: nat -> Reply) returns (q: Pool)
    requires Usable(p)
    ensures q.keys == p.keys && Usable(q)
    ensures |p.keys| == 0 ==> q == p
  {
    var result, cursor', used := FetchWithRotation(p.keys, p.cursor, net, 0);
    q := p.(cursor := cursor');
  }
}

=== FILE: merge.dfy ===
/** Reassembly of the per-chunk audio fragments into one WAV file (`mergeBuffers`)
    and the wrapping of a single fragment for preview (`createWavFromBuffer`). Blobs
    and ArrayBuffers are byte sequences; a Blob built from parts is their
    concatenation. */
module Merge {
  import opened Wrappers
  import opened Seqs
  import opened Wav

  /** `buffer.slice(offset)`: the bytes from `offset` on, empty once the offset
      reaches the end. */
  function Slice(b: Bytes, offset: nat): (r: Bytes)
    ensures |r| == if offset < |b| then |b| - offset else 0
    ensures forall i :: 0 <= i < |r| ==> r[i] == b[offset + i]
  {
    if offset >= |b| then [] else b[offset..]
  }

  /** The sample data kept from one fragment: a WAV fragment from its data offset
      on, any other fragment whole. */
  function SampleData(b: Bytes): (r: Bytes)
    ensures |r| <= |b|
    ensures !IsWav(b) ==> r == b
    ensures forall i :: 0 <= i < |r| ==> r[i] == b[|b| - |r| + i]
    ensures IsWav(b) ==> |r| == if FindDataOffset(b) < |b| then |b| - FindDataOffset(b) else 0
  {
    Slice(b, if IsWav(b) then FindDataOffset(b) else 0)
  }

  /** The parts of `mergeBuffers`, one per fragment, in input order. */
  function Parts(buffers: seq<Bytes>): (parts: seq<Bytes>)
    ensures |parts| == |buffers|
    ensures forall i :: 0 <= i < |buffers| ==> parts[i] == SampleData(buffers[i])
  {
    if buffers == [] then [] else [SampleData(buffers[0])] + Parts(buffers[1..])
  }

  /** `mergeBuffers(buffers)`: nothing at all for no fragments; otherwise a fresh
      header sized for the total sample length, followed by every fragment's sample
      data in order. */
  function MergeBuffers(buffers: seq<Bytes>): (blob: Bytes)
    ensures buffers == [] ==> blob == []
    ensures buffers != [] ==> |blob| == HeaderSize + TotalLength(Parts(buffers))
    ensures buffers != [] ==> blob[HeaderSize..] == Flatten(Parts(buffers))
    ensures buffers != [] ==>
              ReadHeader(blob) == Some(Format((|blob| - 8) % Modulus32, 16, 1, 1, 24000, 48000, 2, 16,
                                              (|blob| - HeaderSize) % Modulus32))
  {
    if buffers == [] then []
    else
      var parts := Parts(buffers);
      var total := TotalLength(parts);
      var header := CreateWavHeader(total);
      FlattenLength(parts);
      HeaderRoundTrip(total, Flatten(parts));
      header + Flatten(parts)
  }

  /** `createWavFromBuffer(buffer)`: a WAV buffer unchanged, anything else behind a
      header sized for it. */
  function CreateWavFromBuffer(b: Bytes): (blob: Bytes)
    ensures IsWav(blob)
    ensures IsWav(b) ==> blob == b
    ensures !IsWav(b) ==> |blob| == HeaderSize + |b| && blob[HeaderSize..] == b
    ensures !IsWav(b) ==>
              ReadHeader(blob) == Some(Format((36 + |b|) % Modulus32, 16, 1, 1, 24000, 48000, 2, 16,
                                              |b| % Modulus32))
  {
    if IsWav(b) then b
    else
      WrapFacts(b);
      CreateWavHeader(|b|) + b
  }

  /** What a header of our own in front of `b` gives. */
  lemma WrapFacts(b: Bytes)
    ensures var blob := CreateWavHeader(|b|) + b;
            && IsWav(blob) && |blob| == HeaderSize + |b| && blob[HeaderSize..] == b
            && ReadHeader(blob) == Some(Format((36 + |b|) % Modulus32, 16, 1, 1, 24000, 48000, 2, 16,
                                               |b| % Modulus32))
  {
    OwnHeaderDataOffset(|b|, b);
    HeaderRoundTrip(|b|, b);
  }

  /** The header declares exactly the bytes that follow it: its data size is the
      summed length of the parts and its RIFF size is the file length less 8
      (both modulo 2^32). */
  lemma MergedSizes(buffers: seq<Bytes>)
    requires buffers != []
    ensures ReadHeader(MergeBuffers(buffers)).Some?
    ensures ReadHeader(MergeBuffers(buffers)).value.dataSize == TotalLength(Parts(buffers)) % Modulus32
    ensures |MergeBuffers(buffers)| == HeaderSize + |Flatten(Parts(buffers))|
  {
    FlattenLength(Parts(buffers));
  }

  /** Fragments without a RIFF header are kept whole: merging only such fragments
      gives a header followed by the fragments themselves, 44 + the sum of their
      lengths in all. */
  lemma MergeBare(buffers: seq<Bytes>)
    requires buffers != []
    requires forall i :: 0 <= i < |buffers| ==> !IsWav(buffers[i])
    ensures Parts(buffers) == buffers
    ensures MergeBuffers(buffers)[HeaderSize..] == Flatten(buffers)
    ensures |MergeBuffers(buffers)| == HeaderSize + TotalLength(buffers)
    ensures ReadHeader(MergeBuffers(buffers)).value.dataSize == TotalLength(buffers) % Modulus32
  {
    assert forall i :: 0 <= i < |buffers| ==> Parts(buffers)[i] == buffers[i];
  }

  /** Stripping recovers what wrapping added: the sample data of our own header
      followed by `d` is `d`, unless the RIFF size field happens to spell `data`. */
  lemma StripWrapped(d: Bytes)
    requires (36 + |d|) % Modulus32 != 0x6174_6164
    ensures SampleData(CreateWavHeader(|d|) + d) == d
  {
    OwnHeaderDataOffset(|d|, d);
    var b := CreateWavHeader(|d|) + d;
    assert b[HeaderSize..] == d;
  }

  /** A bare fragment wrapped for preview and then merged on its own comes back with
      the same bytes: `mergeBuffers([createWavFromBuffer(d)])` equals
      `createWavFromBuffer(d)` (outside the size collision of `StripWrapped`). */
  lemma WrapThenMerge(d: Bytes)
    requires !IsWav(d)
    requires (36 + |d|) % Modulus32 != 0x6174_6164
    ensures MergeBuffers([CreateWavFromBuffer(d)]) == CreateWavFromBuffer(d)
  {
    StripWrapped(d);
    var w := CreateWavFromBuffer(d);
    assert Parts([w]) == [d];
    FlattenSingle(d);
  }

  /** Merging is idempotent: a merged file merged again on its own is unchanged
      (outside the size collision of `StripWrapped`). */
  lemma MergeIdempotent(buffers: seq<Bytes>)
    requires buffers != []
    requires (36 + TotalLength(Parts(buffers))) % Modulus32 != 0x6174_6164
    ensures MergeBuffers([MergeBuffers(buffers)]) == MergeBuffers(buffers)
  {
    var data := Flatten(Parts(buffers));
    FlattenLength(Parts(buffers));
    var m := MergeBuffers(buffers);
    assert m == CreateWavHeader(|data|) + data;
    StripWrapped(data);
    OwnHeaderDataOffset(|data|, data);
    assert Parts([m]) == [data];
    FlattenSingle(data);
  }
}

=== FILE: rotation.dfy ===
/** The credential rotation of the speech tool (`fetchWithRotation`): one synthesis
    request per attempt against the key under the shared cursor, moving the cursor
    round-robin on rate-limit, authorization and quota failures, for at most one
    pass over the key pool. The network is an oracle: `net(k)` is the reply to the
    `k`-th request of a generation run, already decoded from base64 when it carries
    audio. */
module Rotation {
  import opened Wrappers
  import opened Wav
  import opened Arith

  /** An API key: an opaque string. */
  type Key = string

  /** The reply to one request, as the `try` block sees it. */
  datatype Reply =
    | Audio(bytes: Bytes)              // `response.ok` and inline audio data present
    | NoAudio                          // `response.ok` but no inline audio data
    | Status(code: int, body: string)  // `!response.ok`: its status and body text
    | Thrown(message: string)          // `fetch`, `response.json()` or `atob` threw

  /** What an attempt leads to: return the audio, move to the next key, or throw. */
  datatype Verdict = Deliver(bytes: Bytes) | Rotate | Fail(message: string)

  const NoAudioMessage: string := "No audio"
  const QuotaMarker: string := "Quota"
  const ExhaustedMessage: string := "All API Keys exhausted."

  /** `needle` occurs in `hay` starting at index `i`. */
  predicate OccursAt(hay: string, needle: string, i: nat)
  {
    i + |needle| <= |hay| && hay[i..i + |needle|] == needle
  }

  /** `hay.includes(needle)`. */
  predicate Contains(hay: string, needle: string)
  {
    exists i :: 0 <= i <= |hay| && OccursAt(hay, needle, i)
  }

  /** The `catch` block: an error whose message mentions `Quota` rotates, any other
      is rethrown as it is. */
  function Caught(message: string): (v: Verdict)
    ensures v == Rotate || v == Fail(message)
    ensures v == Rotate <==> Contains(message, QuotaMarker)
  {
    if Contains(message, QuotaMarker) then Rotate else Fail(message)
  }

  /** One pass through the `try` block for a reply. */
  function Classify(r: Reply): (v: Verdict)
    ensures v.Deliver? <==> r.Audio?
    ensures r.Audio? ==> v == Deliver(r.bytes)
    ensures r.Status? && (r.code == 429 || r.code == 403) ==> v == Rotate
    ensures r.Status? && v.Fail? ==> v.message == r.body
    ensures r.Thrown? && v.Fail? ==> v.message == r.message
    ensures r.NoAudio? ==> v != Rotate ==> v == Fail(NoAudioMessage)
  {
    match r
    case Audio(bytes) => Deliver(bytes)
    case NoAudio => Caught(NoAudioMessage)
    case Status(code, body) => if code == 429 || code == 403 then Rotate else Caught(body)
    case Thrown(message) => Caught(message)
  }

  /** The verdict of an attempt that ends the call, as the call's result. */
  function Settle(v: Verdict): Result<Bytes>
    requires !v.Rotate?
  {
    match v
    case Deliver(bytes) => Ok(bytes)
    case Fail(message) => Err(message)
  }

  /** `(currentKeyIndex.current + 1) % apiKeys.length`. */
  function Advance(cursor: nat, n: nat): (next: nat)
    requires n > 0
    ensures next < n
    ensures cursor < n ==> next == if cursor + 1 < n then cursor + 1 else 0
  {
    (cursor + 1) % n
  }

  /** The `k`-th request of a call whose first request is `start` is answered with
      a reply that rotates. */
  predicate RotatesAt(net: nat -> Reply, start: nat, k: nat)
  {
    Classify(net(start + k)).Rotate?
  }

  /** What one call of `fetchWithRotation` does, stated without its loop. The call
      sends requests with the keys under the cursor, `pool[(cursor + k) % n]` for the
      `k`-th; every reply but the last rotates; and either the last reply ends the
      call — its audio returned or its message thrown, with the cursor left on the
      key that answered — or all `n` replies rotated and the call throws
      "All API Keys exhausted." with the cursor back where it started. */
  ghost predicate RotationSpec(pool: seq<Key>, cursor: nat, net: nat -> Reply, start: nat,
                               result: Result<Bytes>, cursor': nat, used: seq<Key>)
  {
    var n := |pool|;
    && |used| <= n
    && (forall k :: 0 <= k < |used| ==> used[k] == pool[(cursor + k) % n])
    && (forall k :: 0 <= k < |used| - 1 ==> RotatesAt(net, start, k))
    && if |used| > 0 && !RotatesAt(net, start, |used| - 1) then
         && result == Settle(Classify(net(start + |used| - 1)))
         && cursor' == (cursor + |used| - 1) % n
       else
         && |used| == n
         && result == Err(ExhaustedMessage)
         && cursor' == cursor
  }

  /** `fetchWithRotation(text, voiceId)`, with the shared `currentKeyIndex` passed
      in as `cursor` and returned as `cursor'`, and the keys of the requests it
      sent returned in `used`. */
  method FetchWithRotation(pool: seq<Key>, cursor: nat, net: nat -> Reply, start: nat)
    returns (result: Result<Bytes>, cursor': nat, used: seq<Key>)
    requires |pool| == 0 || cursor < |pool|
    ensures |pool| > 0 ==> cursor' < |pool|
    ensures RotationSpec(pool, cursor, net, start, result, cursor', used)
  {
    var attempts := 0;
    cursor' := cursor;
    used := [];
    if |pool| > 0 {
      DivModUnique(cursor, |pool|, 0, cursor);
    }
    while attempts < |pool|
      invariant attempts <= |pool| && |used| == attempts
      invariant |pool| > 0 ==> cursor' == (cursor + attempts) % |pool|
      invariant |pool| == 0 ==> cursor' == cursor
      invariant forall k :: 0 <= k < attempts ==> used[k] == pool[(cursor + k) % |pool|]
      invariant forall k :: 0 <= k < attempts ==> RotatesAt(net, start, k)
    {
      used := used + [pool[cursor']];
      var caught: string;
      match net(start + attempts) {
        case Audio(bytes) =>
          return Ok(bytes), cursor', used;
        case NoAudio =>
          caught := NoAudioMessage;
        case Status(code, body) =>
          if code == 429 || code == 403 {
            ModStep(cursor + attempts, |pool|);
            cursor' := Advance(cursor', |pool|);
            attempts := attempts + 1;
            continue;
          }
          caught := body;
        case Thrown(message) =>
          caught := message;
      }
      if Contains(caught, QuotaMarker) {
        ModStep(cursor + attempts, |pool|);
        cursor' := Advance(cursor', |pool|);
        attempts := attempts + 1;
      } else {
        return Err(caught), cursor', used;
      }
    }
    if |pool| > 0 {
      DivModUnique(cursor + |pool|, |pool|, 1, cursor);
    }
    result := Err(ExhaustedMessage);
  }

  /** The loop-free description pins the call down: given the pool, the cursor and
      the replies, one result, one final cursor and one list of keys satisfy it. */
  lemma RotationSpecUnique(pool: seq<Key>, cursor: nat, net: nat -> Reply, start: nat,
                           r1: Result<Bytes>, c1: nat, u1: seq<Key>,
                           r2: Result<Bytes>, c2: nat, u2: seq<Key>)
    requires RotationSpec(pool, cursor, net, start, r1, c1, u1)
    requires RotationSpec(pool, cursor, net, start, r2, c2, u2)
    ensures r1 == r2 && c1 == c2 && u1 == u2
  {
    assert |u1| == |u2|;
    assert forall k :: 0 <= k < |u1| ==> u1[k] == u2[k];
  }

  /** The message "No audio" does not mention `Quota`, so a success without audio is
      thrown at once and never rotates. */
  lemma NoAudioNeverRotates()
    ensures Classify(NoAudio) == Fail(NoAudioMessage)
  {
    forall i | 0 <= i <= |NoAudioMessage|
      ensures !OccursAt(NoAudioMessage, QuotaMarker, i)
    {
      if i + |QuotaMarker| <= |NoAudioMessage| {
        assert NoAudioMessage[i] != 'Q';
        assert NoAudioMessage[i..i + |QuotaMarker|][0] != QuotaMarker[0];
      }
    }
  }

  /** Which replies rotate: a failing status 429 or 403, a failing status whose
      body mentions `Quota`, and a thrown error whose message mentions `Quota`;
      every other reply ends the call. */
  lemma RotationRule(r: Reply)
    ensures Classify(r).Rotate? <==>
              || (r.Status? && (r.code == 429 || r.code == 403 || Contains(r.body, QuotaMarker)))
              || (r.Thrown? && Contains(r.message, QuotaMarker))
  {
    if r.NoAudio? {
      NoAudioNeverRotates();
    }
  }

  /** A call over an empty pool sends nothing and throws "All API Keys exhausted.";
      a call over a non-empty pool sends at least one and at most `|pool|` requests. */
  lemma RequestBounds(pool: seq<Key>, cursor: nat, net: nat -> Reply, start: nat,
                      result: Result<Bytes>, cursor': nat, used: seq<Key>)
    requires RotationSpec(pool, cursor, net, start, result, cursor', used)
    ensures |pool| == 0 ==> used == [] && result == Err(ExhaustedMessage)
    ensures |pool| > 0 ==> 0 < |used| <= |pool|
    ensures result.Ok? ==> cursor' == (cursor + |used| - 1) % |pool|
  {
  }
}

=== FILE: seqs.dfy ===
/** Sequence helpers shared by the text chunker and the audio reassembler. */
module Seqs {

  /** The elements of `xs` joined end to end, in order (string `+=`, `new Blob([...parts])`). */
  function Flatten<T>(xs: seq<seq<T>>): seq<T>
  {
    if xs == [] then [] else xs[0] + Flatten(xs[1..])
  }

  /** Sum of the lengths of the elements of `xs`, accumulated left to right. */
  function TotalLength<T>(xs: seq<seq<T>>): nat
  {
    if xs == [] then 0 else |xs[0]| + TotalLength(xs[1..])
  }

  /** Joining then measuring is the same as measuring then summing. */
  lemma {:induction false} FlattenLength<T>(xs: seq<seq<T>>)
    ensures |Flatten(xs)| == TotalLength(xs)
  {
    if xs != [] {
      FlattenLength(xs[1..]);
    }
  }

  /** Flatten distributes over concatenation. */
  lemma {:induction false} FlattenAppend<T>(xs: seq<seq<T>>, ys: seq<seq<T>>)
    ensures Flatten(xs + ys) == Flatten(xs) + Flatten(ys)
  {
    if xs == [] {
      assert xs + ys == ys;
    } else {
      assert (xs + ys)[1..] == xs[1..] + ys;
      FlattenAppend(xs[1..], ys);
    }
  }

  /** A sequence of non-empty pieces joins to the empty sequence only when there are no pieces. */
  lemma FlattenEmpty<T>(xs: seq<seq<T>>)
    requires forall i :: 0 <= i < |xs| ==> xs[i] != []
    ensures Flatten(xs) == [] <==> xs == []
  {
    if xs != [] {
      assert |Flatten(xs)| >= |xs[0]| > 0;
    }
  }

  /** A single piece joins to itself. */
  lemma FlattenSingle<T>(x: seq<T>)
    ensures Flatten([x]) == x
    ensures TotalLength([x]) == |x|
  {
    assert [x][1..] == [];
  }
}

=== FILE: wav.dfy ===
/** The RIFF/WAVE container handling of the speech tool: the 44-byte PCM header it
    writes (`createWavHeader`, `writeString`), the magic-number test (`isWav`) and
    the scan for the `data` chunk (`findDataOffset`). Layout per the RIFF WAVE form
    of the Microsoft/IBM Multimedia Programming Interface and Data Specifications 1.0. */
module Wav {
  import opened Wrappers

  type uint8 = x: int | 0 <= x < 0x100

  type Bytes = seq<uint8>

  const HeaderSize: nat := 44

  /** JavaScript `ToUint32`/`ToUint16`: DataView setters keep the value modulo these. */
  const Modulus32: nat := 0x1_0000_0000
  const Modulus16: nat := 0x1_0000

  /** The four-character tags, as the bytes of their ASCII codes. */
  const RiffTag: Bytes := [0x52, 0x49, 0x46, 0x46]   // "RIFF"
  const WaveTag: Bytes := [0x57, 0x41, 0x56, 0x45]   // "WAVE"
  const FmtTag: Bytes := [0x66, 0x6D, 0x74, 0x20]    // "fmt "
  const DataTag: Bytes := [0x64, 0x61, 0x74, 0x61]   // "data"

  /** The `RIFF` magic read as a big-endian 32-bit number. */
  const RiffMagic: nat := 0x5249_4646

  // ---------------------------------------------------------------------------
  // DataView accessors

  /** Bytes `at..at+|bytes|` of `buf` overwritten with `bytes`, as a run of `setUint8`. */
  function Write(buf: Bytes, at: nat, bytes: Bytes): (r: Bytes)
    requires at + |bytes| <= |buf|
    ensures |r| == |buf|
    ensures r[at..at + |bytes|] == bytes
    ensures forall i :: 0 <= i < |buf| && !(at <= i < at + |bytes|) ==> r[i] == buf[i]
  {
    buf[..at] + bytes + buf[at + |bytes|..]
  }

  /** `setUint32(at, v, true)`: four little-endian bytes of `v` modulo 2^32. */
  function LE32(v: int): (r: Bytes)
    ensures |r| == 4
  {
    var w := v % Modulus32;
    var q1 := w / 0x100;
    var q2 := q1 / 0x100;
    var q3 := q2 / 0x100;
    [w % 0x100, q1 % 0x100, q2 % 0x100, q3]
  }

  /** `setUint16(at, v, true)`: two little-endian bytes of `v` modulo 2^16. */
  function LE16(v: int): (r: Bytes)
    ensures |r| == 2
  {
    var w := v % Modulus16;
    [w % 0x100, w / 0x100]
  }

  /** `getUint32(at, true)`. */
  function ReadLE32(b: Bytes, at: nat): nat
    requires at + 4 <= |b|
  {
    b[at] as int + 0x100 * (b[at + 1] as int + 0x100 * (b[at + 2] as int + 0x100 * b[at + 3] as int))
  }

  /** `getUint16(at, true)`. */
  function ReadLE16(b: Bytes, at: nat): nat
    requires at + 2 <= |b|
  {
    b[at] as int + 0x100 * b[at + 1] as int
  }

  /** `getUint32(at, false)`: big-endian. */
  function ReadBE32(b: Bytes, at: nat): nat
    requires at + 4 <= |b|
  {
    ((b[at] as int * 0x100 + b[at + 1] as int) * 0x100 + b[at + 2] as int) * 0x100 + b[at + 3] as int
  }

  /** The char codes of `s`, each kept modulo 256 as `setUint8` does. */
  function Codes(s: string): (r: Bytes)
    ensures |r| == |s|
    ensures forall i :: 0 <= i < |s| ==> r[i] == (s[i] as int) % 0x100
  {
    seq(|s|, i requires 0 <= i < |s| => (s[i] as int) % 0x100)
  }

  /** `writeString(view, at, s)`: `setUint8(at + i, s.charCodeAt(i))` for each character. */
  function WriteString(buf: Bytes, at: nat, s: string): (r: Bytes)
    requires at + |s| <= |buf|
    ensures |r| == |buf|
    ensures forall i :: 0 <= i < |s| ==> r[at + i] == (s[i] as int) % 0x100
    ensures forall i :: 0 <= i < |buf| && !(at <= i < at + |s|) ==> r[i] == buf[i]
  {
    Write(buf, at, Codes(s))
  }

  /** Round trip of the little-endian 32-bit field: reading back what `setUint32`
      wrote gives the value modulo 2^32. */
  lemma LE32RoundTrip(v: int)
    ensures ReadLE32(LE32(v), 0) == v % Modulus32
  {
    var w := v % Modulus32;
    var q1 := w / 0x100;
    var q2 := q1 / 0x100;
    var q3 := q2 / 0x100;
    assert w == w % 0x100 + 0x100 * q1;
    assert q1 == q1 % 0x100 + 0x100 * q2;
    assert q2 == q2 % 0x100 + 0x100 * q3;
  }

  /** Round trip of the little-endian 16-bit field. */
  lemma LE16RoundTrip(v: int)
    ensures ReadLE16(LE16(v), 0) == v % Modulus16
  {
    var w := v % Modulus16;
    assert w == w % 0x100 + 0x100 * (w / 0x100);
  }

  // ---------------------------------------------------------------------------
  // createWavHeader

  /** The canonical PCM header for `len` data bytes, field after field: RIFF tag,
      RIFF size `36 + len`, WAVE and `fmt ` tags, the 16-byte PCM format block
      (format 1, one channel, 24000 Hz, 48000 bytes/s, block align 2, 16 bits),
      `data` tag, data size `len`. */
  function Layout(len: nat): Bytes
  {
    RiffTag + LE32(36 + len) + WaveTag + FmtTag
    + LE32(16) + LE16(1) + LE16(1) + LE32(24000) + LE32(48000) + LE16(2) + LE16(16)
    + DataTag + LE32(len)
  }

  /** `createWavHeader(len)`: a zeroed 44-byte buffer written field by field. */
  function CreateWavHeader(len: nat): (h: Bytes)
    ensures |h| == HeaderSize
  {
    var h0 := seq(HeaderSize, _ => 0);
    var h1 := WriteString(h0, 0, "RIFF");
    var h2 := Write(h1, 4, LE32(36 + len));
    var h3 := WriteString(h2, 8, "WAVE");
    var h4 := WriteString(h3, 12, "fmt ");
    var h5 := Write(h4, 16, LE32(16));
    var h6 := Write(h5, 20, LE16(1));
    var h7 := Write(h6, 22, LE16(1));
    var h8 := Write(h7, 24, LE32(24000));
    var h9 := Write(h8, 28, LE32(48000));
    var h10 := Write(h9, 32, LE16(2));
    var h11 := Write(h10, 34, LE16(16));
    var h12 := WriteString(h11, 36, "data");
    Write(h12, 40, LE32(len))
  }

  /** The writes of `createWavHeader` tile its 44 bytes exactly, in order, so the
      result is the canonical layout. */
  lemma HeaderIsLayout(len: nat)
    ensures CreateWavHeader(len) == Layout(len)
  {
    var h0: Bytes := seq(HeaderSize, _ => 0);
    assert Codes("RIFF") == RiffTag && Codes("WAVE") == WaveTag;
    assert Codes("fmt ") == FmtTag && Codes("data") == DataTag;
    var h1 := Write(h0, 0, RiffTag);
    WriteExtends(h0, 0, RiffTag);
    assert h1[..4] == RiffTag;
    var h2 := Write(h1, 4, LE32(36 + len));
    WriteExtends(h1, 4, LE32(36 + len));
    var h3 := Write(h2, 8, WaveTag);
    WriteExtends(h2, 8, WaveTag);
    var h4 := Write(h3, 12, FmtTag);
    WriteExtends(h3, 12, FmtTag);
    var h5 := Write(h4, 16, LE32(16));
    WriteExtends(h4, 16, LE32(16));
    var h6 := Write(h5, 20, LE16(1));
    WriteExtends(h5, 20, LE16(1));
    var h7 := Write(h6, 22, LE16(1));
    WriteExtends(h6, 22, LE16(1));
    var h8 := Write(h7, 24, LE32(24000));
    WriteExtends(h7, 24, LE32(24000));
    var h9 := Write(h8, 28, LE32(48000));
    WriteExtends(h8, 28, LE32(48000));
    var h10 := Write(h9, 32, LE16(2));
    WriteExtends(h9, 32, LE16(2));
    var h11 := Write(h10, 34, LE16(16));
    WriteExtends(h10, 34, LE16(16));
    var h12 := Write(h11, 36, DataTag);
    WriteExtends(h11, 36, DataTag);
    var h13 := Write(h12, 40, LE32(len));
    WriteExtends(h12, 40, LE32(len));
    assert h13 == h13[..44];
    assert CreateWavHeader(len) == h13;
  }

  /** A write just past a known prefix extends that prefix by the written bytes. */
  lemma WriteExtends(buf: Bytes, at: nat, bytes: Bytes)
    requires at + |bytes| <= |buf|
    ensures Write(buf, at, bytes)[..at + |bytes|] == buf[..at] + bytes
  {
  }

  // ---------------------------------------------------------------------------
  // Reading a header back

  /** The fields of a canonical PCM header, as decoded numbers. */
  datatype Format = Format(riffSize: nat, fmtSize: nat, audioFormat: nat, channels: nat,
                           sampleRate: nat, byteRate: nat, blockAlign: nat, bitsPerSample: nat,
                           dataSize: nat)

  /** Decodes the first 44 bytes of `h` as a canonical PCM header, when its four tags
      are in place. */
  function ReadHeader(h: Bytes): Option<Format>
  {
    if |h| >= HeaderSize && h[0..4] == RiffTag && h[8..12] == WaveTag
       && h[12..16] == FmtTag && h[36..40] == DataTag
    then Some(Format(ReadLE32(h, 4), ReadLE32(h, 16), ReadLE16(h, 20), ReadLE16(h, 22),
                     ReadLE32(h, 24), ReadLE32(h, 28), ReadLE16(h, 32), ReadLE16(h, 34),
                     ReadLE32(h, 40)))
    else None
  }

  /** Reading a field depends only on its own bytes. */
  lemma ReadField(b: Bytes, at: nat)
    requires at + 4 <= |b|
    ensures ReadLE32(b, at) == ReadLE32(b[at..at + 4], 0)
    ensures ReadLE16(b, at) == ReadLE16(b[at..at + 2], 0)
  {
  }

  /** Where each field of the canonical layout sits. */
  lemma LayoutFields(len: nat)
    ensures |Layout(len)| == HeaderSize
    ensures Layout(len)[0..4] == RiffTag && Layout(len)[4..8] == LE32(36 + len)
    ensures Layout(len)[8..12] == WaveTag && Layout(len)[12..16] == FmtTag
    ensures Layout(len)[16..20] == LE32(16) && Layout(len)[20..22] == LE16(1)
    ensures Layout(len)[22..24] == LE16(1) && Layout(len)[24..28] == LE32(24000)
    ensures Layout(len)[28..32] == LE32(48000) && Layout(len)[32..34] == LE16(2)
    ensures Layout(len)[34..36] == LE16(16) && Layout(len)[36..40] == DataTag
    ensures Layout(len)[40..44] == LE32(len)
  {
  }

  /** Decoding looks at the first 44 bytes only. */
  lemma ReadHeaderPrefix(h: Bytes, rest: Bytes)
    requires |h| == HeaderSize
    ensures ReadHeader(h + rest) == ReadHeader(h)
  {
    var b := h + rest;
    assert b[..HeaderSize] == h;
    assert b[0..4] == h[0..4] && b[8..12] == h[8..12] && b[12..16] == h[12..16] && b[36..40] == h[36..40];
  }

  /** The header `createWavHeader(len)` writes, and whatever follows it, decodes to
      RIFF size `36 + len` and data size `len` (both modulo 2^32) around the fixed
      PCM format: format 1, mono, 24000 Hz, 48000 bytes/s, block align 2, 16 bits. */
  lemma HeaderRoundTrip(len: nat, rest: Bytes)
    ensures |CreateWavHeader(len)| == HeaderSize
    ensures ReadHeader(CreateWavHeader(len) + rest)
         == Some(Format((36 + len) % Modulus32, 16, 1, 1, 24000, 48000, 2, 16, len % Modulus32))
  {
    var h := CreateWavHeader(len);
    HeaderIsLayout(len);
    LayoutFields(len);
    ReadHeaderPrefix(h, rest);
    ReadField(h, 4);
    LE32RoundTrip(36 + len);
    ReadField(h, 16);
    LE32RoundTrip(16);
    ReadField(h, 20);
    LE16RoundTrip(1);
    ReadField(h, 22);
    ReadField(h, 24);
    LE32RoundTrip(24000);
    ReadField(h, 28);
    LE32RoundTrip(48000);
    ReadField(h, 32);
    LE16RoundTrip(2);
    ReadField(h, 34);
    LE16RoundTrip(16);
    ReadField(h, 40);
    LE32RoundTrip(len);
  }

  // ---------------------------------------------------------------------------
  // isWav

  /** `isWav(buffer)`: at least four bytes, the first four read big-endian equal to
      the `RIFF` magic. */
  function IsWav(b: Bytes): (w: bool)
    ensures |b| < 4 ==> !w
  {
    |b| >= 4 && ReadBE32(b, 0) == RiffMagic
  }

  /** The magic-number test is exactly a test of the first four bytes against the
      ASCII tag `RIFF`. */
  lemma IsWavIff(b: Bytes)
    ensures IsWav(b) <==> |b| >= 4 && b[..4] == RiffTag
  {
    if |b| >= 4 && ReadBE32(b, 0) == RiffMagic {
      var hi := (b[0] as int * 0x100 + b[1] as int) * 0x100 + b[2] as int;
      assert hi == RiffMagic / 0x100 && b[3] == RiffMagic % 0x100;
      var mid := b[0] as int * 0x100 + b[1] as int;
      assert mid == hi / 0x100 && b[2] == hi % 0x100;
      assert b[0] == mid / 0x100 && b[1] == mid % 0x100;
    }
  }

  // ---------------------------------------------------------------------------
  // findDataOffset

  /** The bytes `d`, `a`, `t`, `a` start at offset `i` of `b`. */
  predicate DataTagAt(b: Bytes, i: nat)
  {
    i + 4 <= |b| && b[i] == 0x64 && b[i + 1] == 0x61 && b[i + 2] == 0x74 && b[i + 3] == 0x61
  }

  /** The loop of `findDataOffset` from index `i` on: the first `j >= i` with
      `j < length - 4` where the tag starts, if any. */
  function FirstDataTag(b: Bytes, i: nat): (r: Option<nat>)
    decreases |b| - i
    ensures r.Some? ==> i <= r.value && r.value + 4 < |b| && DataTagAt(b, r.value)
    ensures forall j :: i <= j && j + 4 < |b| && (r.None? || j < r.value) ==> !DataTagAt(b, j)
  {
    if i + 4 < |b| then
      if DataTagAt(b, i) then Some(i) else FirstDataTag(b, i + 1)
    else None
  }

  /** `findDataOffset(buffer)`: eight bytes past the first `data` tag the scan finds
      (tag plus its 4-byte size field), or 44 when it finds none. The scan stops one
      short of the last possible position (`i < length - 4`). */
  function FindDataOffset(b: Bytes): (off: nat)
    ensures (forall j :: 0 <= j && j + 4 < |b| ==> !DataTagAt(b, j)) ==> off == HeaderSize
    ensures forall i :: 0 <= i && i + 4 < |b| && DataTagAt(b, i) && (forall j :: 0 <= j < i ==> !DataTagAt(b, j))
                     ==> off == i + 8
  {
    match FirstDataTag(b, 0)
    case Some(i) => i + 8
    case None => HeaderSize
  }

  /** The bytes of the canonical header that do not depend on the data length. */
  lemma FixedBytes(len: nat)
    ensures Layout(len)[..4] == [0x52, 0x49, 0x46, 0x46]
    ensures Layout(len)[8..36] == [0x57, 0x41, 0x56, 0x45, 0x66, 0x6D, 0x74, 0x20,
                                   16, 0, 0, 0, 1, 0, 1, 0, 0xC0, 0x5D, 0, 0,
                                   0x80, 0xBB, 0, 0, 2, 0, 16, 0]
    ensures Layout(len)[36..40] == DataTag
  {
    LayoutFields(len);
    var l := Layout(len);
    assert l[8..36] == l[8..12] + l[12..16] + l[16..20] + l[20..22] + l[22..24]
                       + l[24..28] + l[28..32] + l[32..34] + l[34..36];
    FormatBytes();
  }

  /** The `WAVE` tag and the `fmt ` chunk of the canonical header, byte by byte. */
  lemma FormatBytes()
    ensures WaveTag + FmtTag + LE32(16) + LE16(1) + LE16(1) + LE32(24000) + LE32(48000)
            + LE16(2) + LE16(16)
         == [0x57, 0x41, 0x56, 0x45, 0x66, 0x6D, 0x74, 0x20,
             16, 0, 0, 0, 1, 0, 1, 0, 0xC0, 0x5D, 0, 0,
             0x80, 0xBB, 0, 0, 2, 0, 16, 0]
  {
    assert LE32(16) == [16, 0, 0, 0] && LE16(1) == [1, 0];
    assert LE32(24000) == [0xC0, 0x5D, 0, 0] && LE32(48000) == [0x80, 0xBB, 0, 0];
    assert LE16(2) == [2, 0] && LE16(16) == [16, 0];
  }

  /** Only the RIFF size field, at offset 4, can hold a `data` tag before offset 36. */
  lemma NoTagBefore36(len: nat, rest: Bytes, j: nat)
    requires j < 36 && j != 4
    ensures !DataTagAt(CreateWavHeader(len) + rest, j)
  {
    var h := CreateWavHeader(len);
    var b := h + rest;
    assert b[j] == h[j] && b[j + 1] == h[j + 1] && b[j + 2] == h[j + 2] && b[j + 3] == h[j + 3];
    HeaderIsLayout(len);
    LayoutNoTag(len, j);
  }

  /** The canonical layout has no `data` tag before offset 36 but at offset 4. */
  lemma LayoutNoTag(len: nat, j: nat)
    requires j < 36 && j != 4
    ensures !DataTagAt(Layout(len), j)
  {
    FixedBytes(len);
    LayoutFields(len);
    NoTagInFixed(Layout(len), j);
  }

  /** A buffer that starts with `RIFF` and holds the `WAVE` tag and the `fmt `
      chunk at offsets 8 to 36 has no `data` tag before 36 but at offset 4. */
  lemma NoTagInFixed(l: Bytes, j: nat)
    requires |l| >= 40 && j < 36 && j != 4
    requires l[..4] == [0x52, 0x49, 0x46, 0x46]
    requires l[8..36] == [0x57, 0x41, 0x56, 0x45, 0x66, 0x6D, 0x74, 0x20,
                          16, 0, 0, 0, 1, 0, 1, 0, 0xC0, 0x5D, 0, 0,
                          0x80, 0xBB, 0, 0, 2, 0, 16, 0]
    ensures !DataTagAt(l, j)
  {
    if j < 4 {
      assert l[j] == l[..4][j];
    } else if j < 8 {
      assert l[8] == l[8..36][0] == 0x57;
    } else {
      assert l[j] == l[8..36][j - 8];
    }
  }

  /** On a header of our own the scan meets the `data` tag at offset 36 and so
      returns 44 — unless the RIFF size field itself spells `data`, that is
      `36 + len` is 0x61746164 modulo 2^32, where the scan stops at offset 4. */
  lemma OwnHeaderDataOffset(len: nat, rest: Bytes)
    ensures IsWav(CreateWavHeader(len) + rest)
    ensures (36 + len) % Modulus32 != 0x6174_6164 ==> FindDataOffset(CreateWavHeader(len) + rest) == HeaderSize
    ensures (36 + len) % Modulus32 == 0x6174_6164 ==> FindDataOffset(CreateWavHeader(len) + rest) == 12
  {
    var b := CreateWavHeader(len) + rest;
    HeaderIsLayout(len);
    LayoutFields(len);
    assert b[..4] == RiffTag;
    IsWavIff(b);
    assert b[36..40] == DataTag;
    assert DataTagAt(b, 36);
    assert b[4..8] == LE32(36 + len);
    forall j | j < 36 && j != 4
      ensures !DataTagAt(b, j)
    {
      NoTagBefore36(len, rest, j);
    }
    ReadField(b, 4);
    LE32RoundTrip(36 + len);
    if (36 + len) % Modulus32 != 0x6174_6164 {
      assert !DataTagAt(b, 4);
    } else {
      assert LE32(36 + len) == LE32(0x6174_6164);
      assert DataTagAt(b, 4);
    }
  }
}

=== FILE: wrappers.dfy ===
/** Failure-carrying values used in place of the JavaScript `null` and of thrown errors. */
module Wrappers {

  /** A value that may be absent, as `null` is used for "no audio yet" / "no error". */
  datatype Option<+T> = None | Some(value: T)

  /** The outcome of a call that either returns a value or throws an `Error` whose
      `message` is carried along verbatim. */
  datatype Result<+T> = Ok(value: T) | Err(message: string)
}
